=== FILE: README.md ===
# g2core feedhold sequencing and operation runner, in Dafny

This project models the live code of `g2core/cycle_feedhold.cpp`, the part of the
g2core motion controller that sequences feedholds, cycle starts and queue flushes.
The model has two parts.

- **The operation runner `cmOperation`** (module `Operation`, properties in
  `OperationProps`). It has twelve action slots linked in array order, an `add`
  cursor, a `run` cursor and the `in_operation` flag.
  - Pointers are slot indices. Slot 11's NULL link is the index `NULL == 12`.
  - The runner is generic in the callback type and in the state the callbacks act on.
  - `run_operation` is a recursive drain. Its measure is the slot index, which grows on every OK.
  - A chain that fills all twelve slots makes `run` NULL after its last OK, and the next test dereferences it. The model exposes this case as the `NullDeref` result and does not correct it.
- **The sequencing state machine** (modules `Machine`, `Actions`, `Sequencing`).
  - The state is the two canonical machine contexts cm1 and cm2, and the two planners with their runtime positions.
  - An active-context selector stands for the `cm`/`mp`/`mr` globals.
  - A trace records the calls this file makes into outside code that act on the machine: planner reset, arc abort, spindle and coolant pause and resume, the Z-lift traverse, goto-G30, `mp_queue_command`, cycle start and end, exec-move requests and status reports.
  - `mp_has_runnable_buffer(&mp1)`, a query, is not traced: it is a boolean oracle passed to each poll.
  - Three things happen outside this file and are separate steps:
    - plan_exec moves a SYNC hold to HOLD_ACTION_START (the normal hold's outcome; see "## Left out" for the others);
    - a planner's runtime reaches its oldest queued synchronisation command and fires its callback;
    - the rest of the machine sets a context's cycle and motion state, a cycle-start request included.
  - `Sequencing.Next` takes one such step or one request or poll. `Sequencing.Execute` runs a sequence of them.

Module `Scenarios` proves properties across calls:
- the hold-entry ladder, step by step;
- the origin of the hold-done synchronisation;
- complete hold entries and exits;
- six behaviours of the code as written, listed below.

## Where the code and its description differ

The model follows the code in each of these cases.

- `cm_request_cycle_start` and `cm_request_queue_flush` write the **active** context, but the poll reads cm1. While cm2 is active, such a request sets cm2's state and is never acted on (`Scenarios.RequestLostDuringSecondaryHold`).
- As a consequence, a hold with actions (entered on cm2) cannot be exited through this file's own request function: nothing in the file writes a cycle-start request into cm1 while cm2 is active (`Scenarios.CycleStartOnPrimaryOnlyFromOutside`). The exit scenarios (`Scenarios.ExitHoldWithActions`, `Scenarios.ExitWithActionsFirstPoll`) start from cm1 carrying that request, as written by code outside this file; the model's outside step `Sequencing.SetModes` may set any cycle state and stands for it.
- The documented behaviour ignores a queue flush outside a hold, or waits for HOLD and an idle runtime. `_initiate_queue_flush` checks neither. A flush requested with no hold resets mp1 and leaves the flush state at WAS_RUN (`Scenarios.FlushOutsideHold`).
- The documented exit finalisation waits one tick when a flush is still REQUESTED. The live `_feedhold_exit_with_actions` has no such check.
- After `_feedhold_exit_with_actions` finalises, the hold state stays at EXIT_DONE. The transition to OFF exists only in commented-out code. Only `_cycle_exit` sets OFF, so the hold ends only when the final is FINAL_CYCLE (`Scenarios.ExitHoldWithActions`). A hold without actions and with any other final stays in HOLD (`Scenarios.NoActionsNonCycleFinalStaysInHold`).
- `_initiate_feedhold` ignores the status of `add_action` and moves to SYNC even when the runner refused the actions. A request made while the motion runs is initiated at once, even when cm1 is already in SYNC. Six requests for a hold without actions ending in a program stop therefore fill all twelve slots. The next poll dereferences the NULL cursor (`Scenarios.SixRequestsOverrunTheRunner`).
- `_initiate_cycle_start` runs the operation itself, and the poll runs it again in the same tick. A tick in which a whole exit operation completed therefore reports NOOP (`Scenarios.ExitHoldWithoutActions`).

## Model

| member | source | states |
|---|---|---|
| `Operation.Reset` | g2core/cycle_feedhold.cpp:100-110 | reset leaves no callback in any slot, both cursors on slot 0 and the runner idle; parameter blocks are kept, since `cmAction::reset` only clears the callback |
| `Operation.Init` | g2core/cycle_feedhold.cpp:154-157 | `cm_operation_init` yields an empty, idle, well-formed runner |
| `Operation.AddAction` | g2core/cycle_feedhold.cpp:112-123 | busy: COMMAND_NOT_ACCEPTED and nothing changes; `add` past the last slot: INPUT_EXCEEDS_MAX_LENGTH and nothing changes; otherwise OK, the callback is stored in the `add` slot, the parameters are copied only when given, `add` moves by exactly one and no other slot changes; the chain invariant is kept |
| `Operation.RunOperation` | g2core/cycle_feedhold.cpp:125-144 | a free `run` slot gives NOOP with the runner and state untouched (still idle); a returned run keeps the chain invariant and never adds slots; a NULL dereference happens only when all twelve slots were taken |
| `Operation.Drain` | g2core/cycle_feedhold.cpp:132-143 | the `while` loop: EAGAIN keeps the slots and `add` and never moves `run` backwards; a completed or failed run is well-formed; a NULL dereference leaves `run == NULL` with all slots taken |
| `Operation.Sequential` | g2core/cycle_feedhold.cpp:61-73 | reference semantics for an operation: actions called in order until one does not return OK; all of them ran exactly when the status is OK |
| `OperationProps.AddAll` | g2core/cycle_feedhold.cpp:327-341 | enqueuing callbacks one by one with their statuses ignored: a busy runner is unchanged; otherwise the chain becomes the old chain followed by the new callbacks, truncated at twelve, and the runner stays idle |
| `OperationProps.DrainMatchesSequential` | g2core/cycle_feedhold.cpp:125-144 | the drain equals the reference semantics: OK with a free next slot resets and returns OK; OK on the last slot dereferences NULL; EAGAIN returns EAGAIN with `run` on the action that returned it; any other status resets and is returned unchanged |
| `OperationProps.RunMatchesSequential` | g2core/cycle_feedhold.cpp:113-143 | the same for `run_operation` from any well-formed runner; after EAGAIN the runner is busy with slots and `add` unchanged, so every `add_action` is refused until the chain ends |
| `OperationProps.DrainPreserves` | g2core/cycle_feedhold.cpp:132-143 | a property of the state kept by every action that returns only OK or EAGAIN is kept by the drain, which then returns only OK or EAGAIN |
| `OperationProps.RunPreserves` | g2core/cycle_feedhold.cpp:125-144 | the same for `run_operation`, which may also return NOOP |
| `Actions.EntryActions` | g2core/cycle_feedhold.cpp:398-441 | first-time code of `_feedhold_with_actions`: the active context goes to PENDING; cm2 is cm1's clone with hold and flush OFF and return flags cleared, keeping cm1's distance mode; cm2's G30 return point is mr1's position; without a Z lift cm2, mp2 and mr2 are all at mr1's position; mp2 holds just the hold-done command; cm2 is active; the trace gains planner reset, G30 set, the optional Z lift in incremental mode with cm1's distance mode restored, spindle pause, coolant pause and the queued command |
| `Actions.FeedholdWithActionsStep` | g2core/cycle_feedhold.cpp:395-455 | HOLD_ACTION_START runs the entry actions and returns EAGAIN; HOLD_DONE becomes HOLD with OK; every other state returns EAGAIN and changes nothing |
| `Actions.ExitActions` | g2core/cycle_feedhold.cpp:476-487 | coolant and spindle resume, cm2's Z return flag cleared, goto-G30 to cm2's return point with the cleared flags, exit command queued on the active planner, cm1 to EXIT_PENDING; the selector, the other planner and the active planner's positions are unchanged, and cm1 and cm2 change only in those fields |
| `Actions.ExitFinalise` | g2core/cycle_feedhold.cpp:495-518 | cm1 becomes active; after a flush the position is reset once and the flush state becomes OFF; cm1 changes in nothing but its flush state, so the hold state stays as it was; cm2 and both planners are untouched |
| `Actions.FeedholdExitWithActionsStep` | g2core/cycle_feedhold.cpp:473-521 | HOLD runs the exit actions with EAGAIN; EXIT_DONE finalises with OK; every other state returns EAGAIN and changes nothing |
| `Actions.CycleExitStep` | g2core/cycle_feedhold.cpp:523-533 | always OK with cm1's hold OFF; cycle start and exec-move when mp1 has a runnable buffer, cycle end otherwise; nothing else changes |
| `Actions.Exec` | g2core/cycle_feedhold.cpp:359-392 | every action of the file returns OK or EAGAIN |
| `Actions.FireSync` | g2core/cycle_feedhold.cpp:353-357 | a synchronisation callback writes cm1's hold state (HOLD_DONE, or EXIT_DONE for the exit callback) whatever it was and requests a status report |
| `Sequencing.TerminalActions` | g2core/cycle_feedhold.cpp:334-341 | at most one terminal action per hold final, none for FINAL_CYCLE, never `_cycle_exit` |
| `Sequencing.ExitFinalActions` | g2core/cycle_feedhold.cpp:295-302 | exactly one final action after an exit, and it is `_cycle_exit` exactly for FINAL_CYCLE |
| `Sequencing.EntryAction` | g2core/cycle_feedhold.cpp:328-333 | each hold type has its own entry action: `_feedhold_with_actions` exactly for the type with actions, `_feedhold_with_sync` exactly for the sync type; never an exit action or `_cycle_exit` |
| `Sequencing.ExitActionsFor` | g2core/cycle_feedhold.cpp:289-294 | at most one exit action: none exactly for the sync type, `_feedhold_exit_with_actions` exactly for the type with actions; never `_cycle_exit` nor the type's entry action |
| `Sequencing.HoldReadsOnlyPrimary` | g2core/cycle_feedhold.cpp:243-263 | `cm_has_hold` and the command blocker give the same answer whatever cm2, mp2, the selector and the runner are: only cm1's hold state is consulted |
| `Sequencing.CommandBlocker` | g2core/cycle_feedhold.cpp:257-263 | EAGAIN exactly when `cm_has_hold` holds, OK otherwise |
| `Sequencing.InitiateFeedhold` | g2core/cycle_feedhold.cpp:323-351 | acts on cm1 only for REQUESTED with motion running: the entry action for the type then the terminal action for the final are appended, and cm1 goes to SYNC even when the busy runner refused them; otherwise cm1 is unchanged and a running request on cm2 appends only `_feedhold_with_sync` and moves cm2 to SYNC; with neither, nothing changes |
| `Sequencing.RequestFeedhold` | g2core/cycle_feedhold.cpp:315-351 | the active context records type and final and ends REQUESTED or SYNC. With cm1 active, cm1 ends SYNC exactly when its motion runs; then the entry action for the type and the terminal action for the final are appended (nothing when the runner is busy) and cm2 is untouched; otherwise cm1 stays REQUESTED and the runner changes only through a running request on cm2. With cm2 active, cm1's type and final are kept, cm1 moves to SYNC exactly when it was REQUESTED with motion running, and otherwise cm2 ends SYNC exactly when its motion runs, appending only `_feedhold_with_sync`; the selector, both planners and the trace are never changed, and with cm1 active and running cm1 changes only in type, final and hold state |
| `Sequencing.RequestCycleStart` | g2core/cycle_feedhold.cpp:274-277 | the active context, and only its cycle state, is set to START_REQUESTED; the other context, both planners, the trace, the selector and the runner are unchanged |
| `Sequencing.RequestQueueFlush` | g2core/cycle_feedhold.cpp:581-584 | the active context, and only its flush state, is set to REQUESTED; the other context, both planners, the trace, the selector and the runner are unchanged |
| `Sequencing.QueueFlush` | g2core/cycle_feedhold.cpp:591-596 | arcs aborted and the context's planner reset (its queued commands dropped, its positions kept); the context changes only in its flush state, which always ends WAS_RUN; the other context and planner and the selector are untouched |
| `Sequencing.InitiateQueueFlush` | g2core/cycle_feedhold.cpp:586-589 | flushes the active context with no check of the hold state; cm1's hold and the runner are untouched |
| `Sequencing.RunOnce` | g2core/cycle_feedhold.cpp:202 | the poll's run keeps the chain invariant, never adds slots, returns only NOOP, OK or EAGAIN, moves cm1's hold only along the poll relation, and dereferences NULL only with all slots taken |
| `Sequencing.ExitChain` | g2core/cycle_feedhold.cpp:289-302 | the runner a cycle start in HOLD runs: with room and an idle runner, the chain followed by the type's exit action and the final action, so only the final action for the sync type; a busy runner is unchanged; the chain invariant is kept with at most two slots added |
| `Sequencing.InitiateCycleStart` | g2core/cycle_feedhold.cpp:279-306 | outside a hold: cycle start and exec-move, runner untouched; in HOLD the operation is run once on `ExitChain`, the chain with the exit and final actions appended; in any other hold state it is run once unchanged; `None` exactly when that run dereferences NULL, which cannot happen while fewer than ten slots are taken |
| `Sequencing.PromoteRequests` | g2core/cycle_feedhold.cpp:193-198 | with no feedhold or flush request on cm1 nothing changes; a feedhold request on cm1 becomes SYNC exactly when its motion runs and stays REQUESTED otherwise; a flush request on cm1 flushes the active context (flush WAS_RUN, its planner emptied, arc abort and planner reset traced), and without one the trace is unchanged; the active context is kept, the runner changes only for a feedhold request, keeping the chain invariant and adding at most two actions |
| `Sequencing.SequencingPoll` | g2core/cycle_feedhold.cpp:191-203 | one poll keeps the chain invariant, returns only NOOP, OK or EAGAIN, moves cm1's hold only along the poll relation, and cannot dereference NULL while fewer than eight slots are taken |
| `Sequencing.RunStatuses` | g2core/cycle_feedhold.cpp:359-533 | since every action returns OK or EAGAIN and moves cm1's hold along the poll relation, so does a whole run of the operation |
| `Sequencing.ExecReach` | g2core/cycle_feedhold.cpp:395-533 | one action call moves cm1's hold only from HOLD_ACTION_START to PENDING or from HOLD_DONE to HOLD (by `_feedhold_with_actions`), from HOLD to EXIT_PENDING (by `_feedhold_exit_with_actions`), or to OFF (by `_cycle_exit`) |
| `Sequencing.RuntimeReachesCommand` | g2core/cycle_feedhold.cpp:462-466 | the runtime reaching the oldest queued command removes it from that planner only and sets cm1's hold, and nothing else of cm1, to HOLD_DONE or EXIT_DONE by its kind, adding one status report to the trace; nothing happens with no command queued |
| `Scenarios.HoldLadder` | g2core/cycle_feedhold.cpp:315-533 | for every step: OFF is reached only in a poll; REQUESTED only by a request on cm1; SYNC only from REQUESTED or by such a request; HOLD_ACTION_START only from SYNC through plan_exec; PENDING only from HOLD_ACTION_START in a poll; HOLD only from HOLD_DONE in a poll; EXIT_PENDING only from HOLD or HOLD_DONE in a poll; HOLD_DONE and EXIT_DONE only when the runtime reaches the matching command |
| `Scenarios.BlockerReleasedOnlyByPoll` | g2core/cycle_feedhold.cpp:257-263 | the command blocker stops blocking only in a poll, never through a request or an outside step |
| `Scenarios.HoldDoneQueuedOnlyByEntry` | g2core/cycle_feedhold.cpp:398-441 | the hold-done command appears in a planner only through the entry code run on HOLD_ACTION_START, which makes cm2 active with that single command and cm1 PENDING when cm1 was active |
| `Scenarios.EnterHoldWithActions` | g2core/cycle_feedhold.cpp:395-455 | request, poll, plan_exec, poll, hold-done command, poll: SYNC, SYNC, HOLD_ACTION_START, PENDING, HOLD_DONE, HOLD with statuses EAGAIN, EAGAIN, OK; cm2 active with mr1's position as return point, and without a Z lift cm2, mp2 and mr2 still at that position; the runner empty; the trace gains exactly the entry events and one status report |
| `Scenarios.EntryRequestThenWait` | g2core/cycle_feedhold.cpp:315-351 | a request for a hold with actions while cm1's motion runs queues `_feedhold_with_actions` alone and moves cm1 to SYNC; the next poll calls it, and it waits with EAGAIN and changes nothing |
| `Scenarios.EntryActionsPoll` | g2core/cycle_feedhold.cpp:398-441 | the poll that finds HOLD_ACTION_START returns EAGAIN after running the entry actions, with the chain still waiting on `_feedhold_with_actions` |
| `Scenarios.EntryDonePoll` | g2core/cycle_feedhold.cpp:449-453 | the poll that finds HOLD_DONE sets HOLD, completes the operation with OK and resets the runner |
| `Scenarios.EntryFromActionStart` | g2core/cycle_feedhold.cpp:398-455 | from HOLD_ACTION_START: the poll runs the entry actions with EAGAIN, the runtime reaching the hold-done command sets HOLD_DONE, and the next poll enters HOLD with OK, the runner reset, cm2 active and as the entry actions left it, and one status report added to the trace |
| `Scenarios.ExitHoldWithoutActions` | g2core/cycle_feedhold.cpp:279-306 | a cycle start in a hold without actions ending in FINAL_CYCLE ends the hold in one poll, restarting or ending the cycle with no spindle, coolant or motion event; the poll reports NOOP because the exit ran in the cycle-start run |
| `Scenarios.NoActionsNonCycleFinalStaysInHold` | g2core/cycle_feedhold.cpp:468-471 | with no actions and a final other than FINAL_CYCLE, a cycle start runs the whole chain and leaves the machine, hold included, unchanged |
| `Scenarios.ExitWithActionsFirstPoll` | g2core/cycle_feedhold.cpp:473-492 | the first poll of an exit with actions runs the exit actions once and leaves the chain waiting on its first action |
| `Scenarios.ExitWithActionsFinalPoll` | g2core/cycle_feedhold.cpp:494-533 | after the exit command fires, one poll finalises the exit and runs the final action, emptying the runner |
| `Scenarios.ExitChainFinishes` | g2core/cycle_feedhold.cpp:494-533 | on EXIT_DONE the started exit chain finalises with OK, runs the final action in the same call (`_cycle_exit` for FINAL_CYCLE, an OK-returning hook otherwise) and resets the runner |
| `Scenarios.ExitFromExitDone` | g2core/cycle_feedhold.cpp:494-533 | the poll at EXIT_DONE reports NOOP with the runner empty and cm1 active; the hold ends OFF for FINAL_CYCLE and stays EXIT_DONE otherwise; a run flush is cleared with one position reset; FINAL_CYCLE adds the cycle events |
| `Scenarios.ExitHoldWithActions` | g2core/cycle_feedhold.cpp:473-533 | poll, exit command, poll: EXIT_PENDING, EXIT_DONE, then OFF for FINAL_CYCLE and EXIT_DONE otherwise; cm1 active again; the flush state cleared after a flush; the trace gains exactly the exit events, one status report, one position reset after a flush, and the cycle events for FINAL_CYCLE |
| `Scenarios.ExitFinaliseResyncsOnce` | g2core/cycle_feedhold.cpp:504-507 | finalising the exit any number of times resets the position exactly once after a flush, never without one, and never when it does not run |
| `Scenarios.FinaliseWithoutFlushIsSilent` | g2core/cycle_feedhold.cpp:495-518 | finalising without a flush behind it, however often, adds no event to the trace |
| `Scenarios.RequestLostDuringSecondaryHold` | g2core/cycle_feedhold.cpp:274-277 | with cm2 active in a hold, a cycle-start or flush request marks cm2, and the following poll changes nothing and returns NOOP |
| `Scenarios.CycleStartOnPrimaryOnlyFromOutside` | g2core/cycle_feedhold.cpp:274-277 | while cm2 is active, no request, poll, plan_exec or synchronisation step puts a cycle-start request on cm1; only an outside step writing cm1's cycle state does |
| `Scenarios.CycleStateKeptByPoll` | g2core/cycle_feedhold.cpp:191-203 | a poll never changes cm1's cycle state, so a cycle-start request it acts on stays requested |
| `Scenarios.CycleStateKeptByRun` | g2core/cycle_feedhold.cpp:359-533 | no action of the file writes cm1's cycle state, so no run of the operation does |
| `Scenarios.FlushOutsideHold` | g2core/cycle_feedhold.cpp:581-596 | a flush requested with no hold aborts arcs, resets mp1 and leaves cm1's flush state WAS_RUN, hold still OFF |
| `Scenarios.InertChainCompletes` | g2core/cycle_feedhold.cpp:359-392 | a chain made only of the OK-returning hooks runs to its end in one call and leaves the machine unchanged |
| `Scenarios.InertChainRuns` | g2core/cycle_feedhold.cpp:132-137 | an idle chain of OK-returning hooks that leaves a slot free completes in one `run_operation`, returning OK with the runner reset and the machine unchanged |
| `Scenarios.StopRequestWhileRunning` | g2core/cycle_feedhold.cpp:315-351 | a stop-final request without actions while cm1 runs appends its two actions and moves cm1 to SYNC |
| `Scenarios.RequestsAccumulate` | g2core/cycle_feedhold.cpp:315-351 | k such requests append k pairs of actions in order, with cm1 in SYNC, the runner idle, and cycle and flush states untouched |
| `Scenarios.FullChainCrashes` | g2core/cycle_feedhold.cpp:100-137 | a completed chain occupying all twelve slots makes the next poll dereference the NULL cursor |
| `Scenarios.SixRequestsOverrunTheRunner` | g2core/cycle_feedhold.cpp:104-134 | six requests made while the motion runs fill all twelve slots with cm1 in SYNC, and the next poll dereferences NULL |

## Left out

- Commented-out legacy code (the old sequencing callback body, `cm_start_hold`, the old request functions, the operation action list and everything after the live queue flush) is not compiled and is not modelled.
- `cm_request_alarm` has an empty body and is not modelled.
- Floating point: positions, parameter blocks and the Z-lift distance are opaque values. The lift is `None` for a zero distance, standing for `fp_NOT_ZERO`. `_to_inches` is not modelled.
- Planner, runtime, spindle, coolant, stepper and report code are outside this file. Their calls are trace events, and `mp_has_runnable_buffer` is an oracle. The model gives effects to only two of these calls:
  - `cm_set_g30_position` records cm2's position as its G30 return point;
  - `planner_reset` drops the planner's queued synchronisation commands.
- The effects of `cm_cycle_start`, `cm_cycle_end` and the traverse and goto-G30 moves on cycle and motion state are not computed. An explicit step sets those states instead.
- The deceleration states plan_exec passes through between SYNC and HOLD_ACTION_START are collapsed into one step.
- `Sequencing.PlanExecHoldStart`: of plan_exec's outcomes when the motors stop, only the normal hold's move to HOLD_ACTION_START (case 4c of the file's notes) is modelled. The homing or probing hold that goes straight to OFF (4a), the p2 hold that asks for a p2 queue flush (4b), and how a hold without actions or a sync hold settles in HOLD are decided in plan_exec, outside this file. In the model only `_feedhold_with_actions` writes HOLD, so a hold of another type never reaches HOLD through `Sequencing.Next`. `Scenarios.ExitHoldWithoutActions` and `Scenarios.NoActionsNonCycleFinalStaysInHold` therefore start from a HOLD state assumed to come from plan_exec.
- `Scenarios.HoldLadder`, `Scenarios.BlockerReleasedOnlyByPoll`: they range over the modelled steps only. "HOLD only from HOLD_DONE" and "OFF only in a poll" do not cover plan_exec's outcomes 4a and 4b, which are not modelled.
- The interrupt layer is not modelled as concurrency. The synchronisation callbacks fire as separate steps between calls, never inside one. A callback firing inside `_feedhold_exit_with_actions`, between queuing the exit command and writing EXIT_PENDING, is therefore not modelled; there the code would overwrite EXIT_DONE with EXIT_PENDING. The entry code writes PENDING before it queues its command and has no such window.
- Of the `memcpy` clone of cm1 into cm2, only the fields listed in `Machine.Context` are modelled. The G-code model fields the entry code resets are not. These are the motion mode, absolute override, feed rate, target and target compensation.
- The diagnostic `number` field of each slot is not modelled.
- `Sequencing.SequencingPoll`: it proves no NULL dereference only while fewer than eight slots are taken. That is the most one poll can add (two per initiation) before a full chain is run. The exact condition depends on the queued actions and is exhibited by `Scenarios.SixRequestsOverrunTheRunner`.
- `Actions.EntryActions`, `Scenarios.EnterHoldWithActions`: the Z-lift traverse and the goto-G30 move are trace events only. The model positions they move (cm2's, mp2's and mr2's) are not updated, so the contracts state those positions only when there is no Z lift. The return point, recorded before the lift, is stated in every case.
- `Actions.ExitActions`: for the same reason, its contract keeps cm2's position where the goto-G30 move would change it.
- `Scenarios.HoldLadder`: it constrains each single step. HOLD_DONE also depends on which commands are queued, and that is stated by `Scenarios.HoldDoneQueuedOnlyByEntry` rather than as one invariant over whole runs.

=== FILE: actions.dfy ===
/** The action callbacks this file defines, and the two planner
    synchronisation callbacks the runtime fires when it reaches them. Every
    action returns OK or EAGAIN; none reports an error. */
module Actions {
  import opened Common
  import opened Machine
  import Operation

  datatype Action =
    | FeedholdWithActions         // _feedhold_with_actions
    | FeedholdWithNoActions       // _feedhold_with_no_actions
    | FeedholdWithSync            // _feedhold_with_sync
    | FeedholdExitWithActions     // _feedhold_exit_with_actions
    | FeedholdExitWithNoActions   // _feedhold_exit_with_no_actions
    | CycleExit                   // _cycle_exit
    | ProgramStop                 // _program_stop
    | ProgramEnd                  // _program_end
    | Alarm                       // _alarm
    | Shutdown                    // _shutdown
    | Interlock                   // _interlock

  /** Events of the hold entry up to the queued command: return point, the
      optional Z lift in incremental mode (then cm1's distance mode restored),
      spindle and coolant pause. */
  function EntryMoveEvents(lift: Option<Float>, restore: DistanceMode): (es: seq<Event>)
    ensures |es| == (if lift.Some? then 7 else 4)
    ensures es[0] == PlannerReset(P2) && es[1] == SetG30Position
  {
    [PlannerReset(P2), SetG30Position]
    + (if lift.Some? then [SetDistanceMode(IncrementalDistance), ZLiftTraverse(lift.value), SetDistanceMode(restore)] else [])
    + [SpindlePause, CoolantPauseBoth]
  }

  /** Events of the hold entry: the moves and pauses, then the synchronisation
      command queued on mp2. */
  function EntryEvents(lift: Option<Float>, restore: DistanceMode): (es: seq<Event>)
    ensures (lift.Some? && |es| == 8) || (lift.None? && |es| == 5)
    ensures es[|es| - 1] == QueueCommand(P2, HoldDoneSync)
  {
    EntryMoveEvents(lift, restore) + [QueueCommand(P2, HoldDoneSync)]
  }

  /** First-time code of `_feedhold_with_actions`: mark the active context
      PENDING, clone cm1 into cm2 on a freshly reset mp2 that starts at mr1's
      position, switch the globals to cm2, record that position as the return
      point, run the entry actions and queue the synchronisation command on
      mp2. The Z lift is a trace event only: the positions it moves are stated
      for the case without a lift. */
  function EntryActions(m: Machine): (m': Machine)
    ensures m'.active == P2
    ensures Cm(m', m.active).holdState == HoldPending || m.active == P2
    ensures m.active == P1 ==> m'.cm1 == m.cm1.(holdState := HoldPending)
    ensures m.active == P2 ==> m'.cm1 == m.cm1
    ensures m'.mp2.commands == [HoldDoneSync]
    ensures var mr1 := m.mp1.runtimePosition;
      m.cm1.zLift.None? ==> m'.cm2.position == mr1 && m'.mp2.position == mr1 && m'.mp2.runtimePosition == mr1
    ensures m'.cm2.holdState == HoldOff && m'.cm2.flushState == FlushOff
    ensures m'.cm2.returnFlags == NoFlags
    ensures m'.cm2.g30Position == m.mp1.runtimePosition
    ensures && m'.cm2.holdType == m.cm1.holdType && m'.cm2.holdFinal == m.cm1.holdFinal
            && m'.cm2.cycleState == m.cm1.cycleState && m'.cm2.motionState == m.cm1.motionState
            && m'.cm2.zLift == m.cm1.zLift && m'.cm2.distanceMode == m.cm1.distanceMode
    ensures m'.mp1 == m.mp1
    ensures m'.trace == m.trace + EntryEvents(m.cm1.zLift, m.cm1.distanceMode)
  {
    // cm->hold_state = FEEDHOLD_HOLD_PENDING, through the active context
    var m1 := WithCm(m, m.active, Cm(m, m.active).(holdState := HoldPending));
    var mr1 := m1.mp1.runtimePosition;
    // memcpy(&cm2, &cm1), then the fields the code overrides
    var cm2 := m1.cm1.(holdState := HoldOff, flushState := FlushOff, returnFlags := NoFlags, position := mr1);
    // planner_reset(mp2) empties it; then its positions are set from mr1
    var mp2 := Planner(mr1, mr1, []);
    var m2 := m1.(cm2 := cm2, mp2 := mp2, active := P2);
    // cm_set_g30_position() on the now active cm2: the hold's return point
    var m2 := m2.(cm2 := m2.cm2.(g30Position := m2.cm2.position));
    var lift := m2.cm2.zLift;
    var m3 := Emit(m2, EntryMoveEvents(lift, m2.cm1.distanceMode));
    QueueSync(m3, HoldDoneSync)
  }

  /** `_feedhold_with_actions`: entry actions from HOLD_ACTION_START, waiting in
      PENDING, HOLD from HOLD_DONE. */
  function FeedholdWithActionsStep(m: Machine): (res: (Stat, Machine))
    ensures m.cm1.holdState == HoldActionStart ==> res == (Eagain, EntryActions(m))
    ensures m.cm1.holdState == HoldDone ==> res == (Ok, m.(cm1 := m.cm1.(holdState := Hold)))
    ensures m.cm1.holdState !in {HoldActionStart, HoldDone} ==> res == (Eagain, m)
  {
    if m.cm1.holdState == HoldActionStart then (Eagain, EntryActions(m))
    else if m.cm1.holdState == HoldPending then (Eagain, m)
    else if m.cm1.holdState == HoldDone then (Ok, m.(cm1 := m.cm1.(holdState := Hold)))
    else (Eagain, m)
  }

  /** Events of the first run of `_feedhold_exit_with_actions`: coolant and
      spindle resume, the move to the G30 return point with the Z return flag
      cleared, and the exit command queued on the active planner. */
  function ExitEvents(m: Machine): (es: seq<Event>)
    ensures |es| == 4 && es[3] == QueueCommand(m.active, ExitDoneSync)
    ensures ResetPositionToAbsolute(P1) !in es
  {
    [CoolantResumeBoth, SpindleResume, GotoG30(m.cm2.g30Position, m.cm2.returnFlags[AXIS_Z := false]),
     QueueCommand(m.active, ExitDoneSync)]
  }

  /** First-time code of `_feedhold_exit_with_actions`, still on the secondary
      context: resume coolant and spindle, clear cm2's Z return flag, return to
      the G30 point, queue the synchronisation command, EXIT_PENDING. */
  function ExitActions(m: Machine): (m': Machine)
    ensures m'.cm1 == m.cm1.(holdState := HoldExitPending)
    ensures m'.cm2 == m.cm2.(returnFlags := m.cm2.returnFlags[AXIS_Z := false])
    ensures !m'.cm2.returnFlags[AXIS_Z]
    ensures m'.active == m.active
    ensures Mp(m', m.active) == Mp(m, m.active).(commands := Mp(m, m.active).commands + [ExitDoneSync])
    ensures m.active == P1 ==> m'.mp2 == m.mp2
    ensures m.active == P2 ==> m'.mp1 == m.mp1
    ensures m'.trace == m.trace + ExitEvents(m)
  {
    var m1 := Emit(m, [CoolantResumeBoth, SpindleResume]);
    var flags: Flags := m1.cm2.returnFlags[AXIS_Z := false];
    var m2 := Emit(m1.(cm2 := m1.cm2.(returnFlags := flags)), [GotoG30(m1.cm2.g30Position, flags)]);
    var m3 := QueueSync(m2, ExitDoneSync);
    m3.(cm1 := m3.cm1.(holdState := HoldExitPending))
  }

  /** Finalisation of `_feedhold_exit_with_actions` on EXIT_DONE: back to the
      primary context; after a queue flush, reset the position and clear the
      flush state. The hold state is left at EXIT_DONE. */
  function ExitFinalise(m: Machine): (m': Machine)
    ensures m'.active == P1
    ensures m'.cm1.holdState == m.cm1.holdState
    ensures m'.cm1.flushState == (if m.cm1.flushState == FlushWasRun then FlushOff else m.cm1.flushState)
    ensures m'.cm1 == m.cm1.(flushState := m'.cm1.flushState)
    ensures m'.trace == m.trace + (if m.cm1.flushState == FlushWasRun then [ResetPositionToAbsolute(P1)] else [])
    ensures m'.cm2 == m.cm2 && m'.mp1 == m.mp1 && m'.mp2 == m.mp2
  {
    var m1 := m.(active := P1);
    if m1.cm1.flushState == FlushWasRun then
      Emit(m1, [ResetPositionToAbsolute(P1)]).(cm1 := m1.cm1.(flushState := FlushOff))
    else m1
  }

  /** `_feedhold_exit_with_actions`. */
  function FeedholdExitWithActionsStep(m: Machine): (res: (Stat, Machine))
    ensures m.cm1.holdState == Hold ==> res == (Eagain, ExitActions(m))
    ensures m.cm1.holdState == HoldExitDone ==> res == (Ok, ExitFinalise(m))
    ensures m.cm1.holdState !in {Hold, HoldExitDone} ==> res == (Eagain, m)
  {
    if m.cm1.holdState == Hold then (Eagain, ExitActions(m))
    else if m.cm1.holdState == HoldExitPending then (Eagain, m)
    else if m.cm1.holdState == HoldExitDone then (Ok, ExitFinalise(m))
    else (Eagain, m)
  }

  /** `_cycle_exit`: restart the primary cycle when mp1 has a runnable buffer
      (`runnable`, an oracle), end it otherwise; the hold is always OFF after. */
  function CycleExitStep(m: Machine, runnable: bool): (res: (Stat, Machine))
    ensures res.0 == Ok
    ensures res.1.cm1 == m.cm1.(holdState := HoldOff)
    ensures res.1.trace == m.trace + (if runnable then [CycleStart, RequestExecMove] else [CycleEnd])
    ensures res.1.cm2 == m.cm2 && res.1.mp1 == m.mp1 && res.1.mp2 == m.mp2 && res.1.active == m.active
  {
    var m1 := Emit(m, if runnable then [CycleStart, RequestExecMove] else [CycleEnd]);
    (Ok, m1.(cm1 := m1.cm1.(holdState := HoldOff)))
  }

  /** The call through an action's function pointer. The parameter block is
      ignored by every action of this file. */
  function Exec(a: Action, p: Operation.Params, m: Machine, runnable: bool): (res: (Stat, Machine))
    ensures res.0 == Ok || res.0 == Eagain
  {
    match a
    case FeedholdWithActions => FeedholdWithActionsStep(m)
    case FeedholdExitWithActions => FeedholdExitWithActionsStep(m)
    case CycleExit => CycleExitStep(m, runnable)
    case _ => (Ok, m)
  }

  /** A synchronisation callback fired from the runtime: it writes cm1's hold
      state whatever it was, and requests a status report. */
  function FireSync(m: Machine, cb: SyncCallback): (m': Machine)
    ensures m'.cm1 == m.cm1.(holdState := if cb == HoldDoneSync then HoldDone else HoldExitDone)
    ensures m'.trace == m.trace + [StatusReport]
    ensures m'.cm2 == m.cm2 && m'.mp1 == m.mp1 && m'.mp2 == m.mp2 && m'.active == m.active
  {
    var h := if cb == HoldDoneSync then HoldDone else HoldExitDone;
    Emit(m.(cm1 := m.cm1.(holdState := h)), [StatusReport])
  }
}

=== FILE: common.dfy ===
/** Values shared by the operation runner and the feedhold sequencer:
    the status codes the file returns, an option type standing in for
    nullable pointers, and opaque stand-ins for floating point data. */
module Common {

  /** Status codes returned by actions, by `add_action` and by `run_operation`.
      The program's own status type has many more codes; every one that is not
      listed here is an `Error`, which the runner treats alike. */
  datatype Stat =
    | Ok                      // STAT_OK
    | Eagain                  // STAT_EAGAIN: call again to complete
    | Noop                    // STAT_NOOP: nothing to run, not an error
    | CommandNotAccepted      // STAT_COMMAND_NOT_ACCEPTED
    | InputExceedsMaxLength   // STAT_INPUT_EXCEEDS_MAX_LENGTH
    | Error(code: nat)        // any other status an action may return

  /** Nullable value (a NULL pointer is `None`). */
  datatype Option<+T> = None | Some(value: T)

  /** A floating point value, kept opaque: the model never computes with floats. */
  datatype Float = Float(bits: int)

  /** Number of axes of the machine (position and flag vectors). */
  const AXES: nat := 6

  /** Index of the Z axis in axis vectors. */
  const AXIS_Z: nat := 2

  /** An axis-indexed vector of floats. */
  type Vector = v: seq<Float> | |v| == AXES
    witness [Float(0), Float(0), Float(0), Float(0), Float(0), Float(0)]

  /** An axis-indexed vector of flags. */
  type Flags = f: seq<bool> | |f| == AXES
    witness [false, false, false, false, false, false]

  const NoFlags: Flags := [false, false, false, false, false, false]
}

=== FILE: machine.dfy ===
/** The state the feedhold sequencing reads and writes: the two canonical
    machine contexts (cm1 primary, cm2 secondary), their planners with the
    runtime position under each, the active-context selector standing for the
    `cm`/`mp`/`mr` globals, and a trace of the calls made into code outside
    this file. */
module Machine {
  import opened Common

  /** `cmFeedholdState`, restricted to the values this file reads or writes.
      The deceleration states plan_exec passes through between SYNC and
      HOLD_ACTION_START are not part of this model. */
  datatype HoldState =
    | HoldOff           // FEEDHOLD_OFF
    | HoldRequested     // FEEDHOLD_REQUESTED
    | HoldSync          // FEEDHOLD_SYNC
    | HoldActionStart   // FEEDHOLD_HOLD_ACTION_START
    | HoldPending       // FEEDHOLD_HOLD_PENDING
    | HoldDone          // FEEDHOLD_HOLD_DONE
    | Hold              // FEEDHOLD_HOLD
    | HoldExitPending   // FEEDHOLD_HOLD_EXIT_PENDING
    | HoldExitDone      // FEEDHOLD_HOLD_EXIT_DONE

  datatype FlushState = FlushOff | FlushRequested | FlushWasRun

  datatype CycleState = CycleOff | CycleMachining | CycleStartRequested

  datatype MotionState = MotionStop | MotionPlanning | MotionRun

  /** Which entry (and exit) actions a hold runs. */
  datatype HoldType = TypeActions | TypeNoActions | TypeSync

  /** What the hold ends in. */
  datatype HoldFinal = FinalCycle | FinalStop | FinalEnd | FinalAlarm | FinalShutdown | FinalInterlock

  datatype DistanceMode = AbsoluteDistance | IncrementalDistance

  /** The fields of `cmMachine_t` this file uses. `zLift` is the configured Z
      lift: `None` when the distance is zero, otherwise the (opaque) distance
      already converted to the current units. */
  datatype Context = Context(
    holdState: HoldState,
    flushState: FlushState,
    cycleState: CycleState,
    motionState: MotionState,
    holdType: HoldType,
    holdFinal: HoldFinal,
    position: Vector,         // gmx.position
    g30Position: Vector,      // gmx.g30_position
    returnFlags: Flags,
    distanceMode: DistanceMode,
    zLift: Option<Float>)

  /** The context selector: cm1/mp1/mr1 or cm2/mp2/mr2. */
  datatype Which = P1 | P2

  /** Planner synchronisation callbacks queued with `mp_queue_command`. */
  datatype SyncCallback =
    | HoldDoneSync    // _feedhold_sync_to_planner
    | ExitDoneSync    // _feedhold_exit_sync_to_planner

  /** A planner (`mpPlanner_t`) with its runtime (`mpPlannerRuntime_t`): the
      planner position, the runtime's physical position and the queued
      synchronisation commands not yet reached by the runtime. */
  datatype Planner = Planner(position: Vector, runtimePosition: Vector, commands: seq<SyncCallback>)

  /** Calls into code outside this file, in the order they are made. */
  datatype Event =
    | PlannerReset(planner: Which)
    | AbortArc(context: Which)
    | SetG30Position
    | SetDistanceMode(mode: DistanceMode)
    | ZLiftTraverse(distance: Float)          // incremental traverse of Z only
    | SpindlePause
    | SpindleResume
    | CoolantPauseBoth
    | CoolantResumeBoth
    | QueueCommand(planner: Which, callback: SyncCallback)
    | GotoG30(target: Vector, flags: Flags)
    | ResetPositionToAbsolute(context: Which)
    | CycleStart
    | CycleEnd
    | RequestExecMove
    | StatusReport

  datatype Machine = Machine(
    cm1: Context,
    cm2: Context,
    mp1: Planner,
    mp2: Planner,
    active: Which,
    trace: seq<Event>)

  function Cm(m: Machine, w: Which): (c: Context) {
    if w == P1 then m.cm1 else m.cm2
  }

  function Mp(m: Machine, w: Which): (p: Planner) {
    if w == P1 then m.mp1 else m.mp2
  }

  /** Replace one context, keeping the other. */
  function WithCm(m: Machine, w: Which, c: Context): (m': Machine)
    ensures Cm(m', w) == c
    ensures w == P1 ==> m'.cm2 == m.cm2
    ensures w == P2 ==> m'.cm1 == m.cm1
    ensures m'.mp1 == m.mp1 && m'.mp2 == m.mp2 && m'.active == m.active && m'.trace == m.trace
  {
    if w == P1 then m.(cm1 := c) else m.(cm2 := c)
  }

  /** Replace one planner, keeping the other. */
  function WithMp(m: Machine, w: Which, p: Planner): (m': Machine)
    ensures Mp(m', w) == p
    ensures w == P1 ==> m'.mp2 == m.mp2
    ensures w == P2 ==> m'.mp1 == m.mp1
    ensures m'.cm1 == m.cm1 && m'.cm2 == m.cm2 && m'.active == m.active && m'.trace == m.trace
  {
    if w == P1 then m.(mp1 := p) else m.(mp2 := p)
  }

  /** Record calls made into outside code. */
  function Emit(m: Machine, es: seq<Event>): (m': Machine)
    ensures m'.trace == m.trace + es
    ensures m'.cm1 == m.cm1 && m'.cm2 == m.cm2 && m'.mp1 == m.mp1 && m'.mp2 == m.mp2
    ensures m'.active == m.active
  {
    m.(trace := m.trace + es)
  }

  /** `mp_queue_command` on the active planner: the callback is queued behind
      whatever the runtime has not yet reached. */
  function QueueSync(m: Machine, cb: SyncCallback): (m': Machine)
    ensures Mp(m', m.active).commands == Mp(m, m.active).commands + [cb]
    ensures Mp(m', m.active).position == Mp(m, m.active).position
    ensures Mp(m', m.active).runtimePosition == Mp(m, m.active).runtimePosition
    ensures m.active == P1 ==> m'.mp2 == m.mp2
    ensures m.active == P2 ==> m'.mp1 == m.mp1
    ensures m'.cm1 == m.cm1 && m'.cm2 == m.cm2 && m'.active == m.active
    ensures m'.trace == m.trace + [QueueCommand(m.active, cb)]
  {
    var p := Mp(m, m.active);
    Emit(WithMp(m, m.active, p.(commands := p.commands + [cb])), [QueueCommand(m.active, cb)])
  }

  /** Number of occurrences of an event in a trace. */
  function Count(t: seq<Event>, e: Event): (n: nat)
    ensures n <= |t|
    ensures n == 0 <==> e !in t
  {
    if |t| == 0 then 0 else (if t[0] == e then 1 else 0) + Count(t[1..], e)
  }
}

=== FILE: operation.dfy ===
/** The operation runner `cmOperation`: a fixed pool of action slots linked in
    array order, an `add` cursor, a `run` cursor and a busy flag.

    Pointers become slot indices. Slot `i` links to slot `i + 1`; the last slot
    links to NULL, written here as the index `NULL == ACTION_MAX`. The runner is
    generic in the callback type `F` and in the state `S` the callbacks act on;
    `exec` is the call through the function pointer. */
module Operation {
  import opened Common

  /** Maximum number of actions that can be queued for one operation. */
  const ACTION_MAX: nat := 12

  /** Maximum number of parameters passed to an action. */
  const PARAM_MAX: nat := 4

  /** The cursor value standing for a NULL pointer (the last slot's link). */
  const NULL: nat := ACTION_MAX

  type Params = p: seq<Float> | |p| == PARAM_MAX
    witness [Float(0), Float(0), Float(0), Float(0)]

  /** One action slot: a callback (`None` marks a free slot and the end of the
      chain) and its parameter block. */
  datatype Slot<F> = Slot(func: Option<F>, param: Params)

  datatype Runner<F> = Runner(action: seq<Slot<F>>, add: nat, run: nat, inOperation: bool)

  /** The call through the function pointer: the callback, its parameters and the
      state it acts on give a status and a new state. */
  type Callback<!F, !S> = (F, Params, S) -> (Stat, S)

  /** What `run_operation` does: it returns a status, or it dereferences a NULL
      `run` cursor, which the program does not guard against. */
  datatype Run<F, S> =
    | Returned(status: Stat, runner: Runner<F>, state: S)
    | NullDeref(runner: Runner<F>, state: S)

  /** The shape every runner has: ACTION_MAX slots, cursors on a slot or NULL. */
  predicate Valid<F>(r: Runner<F>) {
    |r.action| == ACTION_MAX && r.add <= NULL && r.run <= NULL
  }

  /** The chain invariant kept between calls: exactly the slots before `add` hold
      a callback (so a free slot always ends the chain unless all are taken), `run`
      never passes `add`, an idle runner runs from slot 0 and a busy runner's
      `run` cursor is on a queued action. */
  predicate Wf<F>(r: Runner<F>) {
    && Valid(r)
    && (forall i :: 0 <= i < ACTION_MAX ==> (r.action[i].func.Some? <==> i < r.add))
    && r.run <= r.add
    && (!r.inOperation ==> r.run == 0)
    && (r.inOperation ==> r.run < r.add)
  }

  /** An idle runner with nothing queued. */
  predicate Empty<F>(r: Runner<F>) {
    && Valid(r)
    && (forall i :: 0 <= i < ACTION_MAX ==> r.action[i].func.None?)
    && r.add == 0 && r.run == 0 && !r.inOperation
  }

  /** `reset()`: clears every callback and rewinds both cursors. Parameter
      blocks are not cleared (`cmAction::reset` only nulls the callback). */
  function Reset<F>(r: Runner<F>): (r': Runner<F>)
    requires Valid(r)
    ensures Empty(r') && Wf(r')
    ensures forall i :: 0 <= i < ACTION_MAX ==> r'.action[i].param == r.action[i].param
  {
    Runner(seq(ACTION_MAX, i requires 0 <= i < ACTION_MAX => r.action[i].(func := None)), 0, 0, false)
  }

  /** `reset()` looks at the slots only, not at the cursors. */
  lemma ResetKeepsOnlySlots<F>(r: Runner<F>, r': Runner<F>)
    requires Valid(r) && Valid(r') && r.action == r'.action
    ensures Reset(r) == Reset(r')
  {
    assert Reset(r).action == Reset(r').action;
  }

  /** The runner set up by `cm_operation_init()`, given the slots' initial
      (uninitialised) parameter blocks. */
  function Init<F>(params: seq<Params>): (r: Runner<F>)
    requires |params| == ACTION_MAX
    ensures Empty(r) && Wf(r)
  {
    Runner(seq(ACTION_MAX, i requires 0 <= i < ACTION_MAX => Slot(None, params[i])), 0, 0, false)
  }

  /** `add_action`: enqueue one callback, copying the parameter block if one is
      given. Rejected while an operation is running and when no slot is left. */
  function AddAction<F>(r: Runner<F>, f: F, param: Option<Params>): (res: (Stat, Runner<F>))
    requires Valid(r)
    ensures Valid(res.1)
    ensures r.inOperation ==> res == (CommandNotAccepted, r)
    ensures !r.inOperation && r.add == NULL ==> res == (InputExceedsMaxLength, r)
    ensures !r.inOperation && r.add < NULL ==>
      && res.0 == Ok
      && res.1.add == r.add + 1
      && res.1.run == r.run && !res.1.inOperation
      && |res.1.action| == |r.action|
      && res.1.action[r.add].func == Some(f)
      && res.1.action[r.add].param == (if param.Some? then param.value else r.action[r.add].param)
      && (forall i :: 0 <= i < ACTION_MAX && i != r.add ==> res.1.action[i] == r.action[i])
    ensures Wf(r) ==> Wf(res.1)
  {
    if r.inOperation then (CommandNotAccepted, r)
    else if r.add == NULL then (InputExceedsMaxLength, r)
    else
      var slot := r.action[r.add];
      var p := if param.Some? then param.value else slot.param;
      (Ok, r.(action := r.action[r.add := Slot(Some(f), p)], add := r.add + 1))
  }

  /** `run_operation`: NOOP when the `run` slot is free; otherwise marks the
      runner busy and drains the chain. */
  function RunOperation<F, S>(r: Runner<F>, s: S, exec: Callback<F, S>): (res: Run<F, S>)
    requires Valid(r)
    ensures Valid(res.runner)
    ensures r.run < NULL && r.action[r.run].func.None? ==> res == Returned(Noop, r, s)
    ensures Wf(r) && res.Returned? ==> Wf(res.runner)
    ensures Wf(r) && res.NullDeref? ==> r.add == NULL
    ensures Wf(r) && res.Returned? ==> res.runner.add <= r.add
  {
    if r.run == NULL then NullDeref(r, s)
    else if r.action[r.run].func.None? then Returned(Noop, r, s)
    else Drain(r.(inOperation := true), s, exec)
  }

  /** Predicate of a runner in the middle of the `while` loop of `run_operation`. */
  predicate Draining<F>(r: Runner<F>) {
    Wf(r) && r.inOperation
  }

  /** The `while` loop of `run_operation`: OK advances to the next slot within
      the same call, a free next slot completes the operation, EAGAIN suspends
      without moving the cursor, any other status resets the runner. The slot
      index strictly increases on each OK. */
  function Drain<F, S>(r: Runner<F>, s: S, exec: Callback<F, S>): (res: Run<F, S>)
    requires Valid(r) && r.run < NULL && r.action[r.run].func.Some?
    ensures Valid(res.runner)
    ensures Draining(r) && res.Returned? ==> Wf(res.runner)
    ensures Draining(r) && res.Returned? && res.status == Eagain ==>
      && res.runner.action == r.action && res.runner.add == r.add
      && r.run <= res.runner.run
    ensures Draining(r) && res.NullDeref? ==> r.add == NULL && res.runner.run == NULL
    ensures Draining(r) && res.Returned? ==> res.runner.add <= r.add
    decreases NULL - r.run
  {
    var (status, s') := exec(r.action[r.run].func.value, r.action[r.run].param, s);
    if status == Ok then
      var next := r.run + 1;
      if next == NULL then NullDeref(r.(run := next), s')
      else if r.action[next].func.None? then Returned(Ok, Reset(r), s')
      else Drain(r.(run := next), s', exec)
    else if status == Eagain then Returned(Eagain, r, s')
    else Returned(status, Reset(r), s')
  }

  /** The callbacks queued from the `run` cursor to the end of the chain. */
  function Queued<F>(r: Runner<F>): (q: seq<Slot<F>>)
    requires Wf(r)
    ensures |q| == r.add - r.run
    ensures forall i :: 0 <= i < |q| ==> q[i].func.Some?
  {
    r.action[r.run..r.add]
  }

  /** The callbacks of a whole chain, in slot order. */
  function Funcs<F>(r: Runner<F>): (fs: seq<F>)
    requires Wf(r)
    ensures |fs| == r.add
    ensures forall i :: 0 <= i < |fs| ==> r.action[i].func == Some(fs[i])
  {
    seq(r.add, i requires 0 <= i < r.add => r.action[i].func.value)
  }

  /** Reference semantics independent of slots and cursors: call the queued
      actions one after another, stopping at the first status that is not OK.
      `done` counts the actions that returned OK. */
  datatype Outcome<S> = Outcome(status: Stat, done: nat, state: S)

  function Sequential<F, S>(q: seq<Slot<F>>, s: S, exec: Callback<F, S>): (o: Outcome<S>)
    requires |q| > 0
    requires forall i :: 0 <= i < |q| ==> q[i].func.Some?
    ensures o.status == Ok ==> o.done == |q|
    ensures o.status != Ok ==> o.done < |q|
    decreases |q|
  {
    var (status, s') := exec(q[0].func.value, q[0].param, s);
    if status != Ok then Outcome(status, 0, s')
    else if |q| == 1 then Outcome(Ok, 1, s')
    else
      var o := Sequential(q[1..], s', exec);
      o.(done := o.done + 1)
  }
}

=== FILE: operation_props.dfy ===
/** Properties of the operation runner: enqueue order, the drain against a
    slot-free reference semantics, suspension on EAGAIN, reset on completion
    and on error, and the NULL dereference of a chain that fills every slot. */
module OperationProps {
  import opened Common
  import opened Operation

  function Min(a: nat, b: nat): (n: nat) {
    if a <= b then a else b
  }

  /** Enqueue callbacks one after another, ignoring each `add_action` status as
      the sequencing code does. */
  function AddAll<F>(r: Runner<F>, fs: seq<F>): (r': Runner<F>)
    requires Valid(r)
    ensures Valid(r')
    ensures r.inOperation ==> r' == r
    ensures !r.inOperation ==> !r'.inOperation && r'.run == r.run
    ensures Wf(r) ==> Wf(r')
    ensures Wf(r) ==> r'.add <= r.add + |fs|
    ensures Wf(r) && !r.inOperation ==>
      && r'.add == Min(r.add + |fs|, NULL)
      && Funcs(r') == (Funcs(r) + fs)[..Min(r.add + |fs|, NULL)]
    decreases |fs|
  {
    if |fs| == 0 then r
    else
      var r1 := AddAction(r, fs[0], None).1;
      var r' := AddAll(r1, fs[1..]);
      if Wf(r) && !r.inOperation then
        assert Funcs(r1) == (Funcs(r) + fs)[..Min(r.add + 1, NULL)];
        assert Funcs(r1) + fs[1..] == Funcs(r) + fs || r.add == NULL;
        r'
      else r'
  }

  /** The drain loop against the reference semantics: statuses are those of the
      queued actions called in slot order; OK chains within the call; EAGAIN
      suspends on the action that returned it; any other status resets. After
      the last OK the next slot is free, unless the chain took every slot: then
      `run` becomes NULL. */
  lemma {:induction false} DrainMatchesSequential<F, S>(r: Runner<F>, s: S, exec: Callback<F, S>)
    requires Draining(r)
    ensures
      var o := Sequential(r.action[r.run..r.add], s, exec);
      var res := Drain(r, s, exec);
      && res.state == o.state
      && (o.status == Ok && r.add == NULL ==> res == NullDeref(r.(run := NULL), o.state))
      && (o.status == Ok && r.add < NULL ==> res == Returned(Ok, Reset(r), o.state))
      && (o.status == Eagain ==> res == Returned(Eagain, r.(run := r.run + o.done), o.state))
      && (o.status != Ok && o.status != Eagain ==> res == Returned(o.status, Reset(r), o.state))
    decreases NULL - r.run
  {
    var q := r.action[r.run..r.add];
    var (status, s') := exec(r.action[r.run].func.value, r.action[r.run].param, s);
    if status == Ok {
      var next := r.run + 1;
      if next < NULL && r.action[next].func.Some? {
        var r1 := r.(run := next);
        assert q[1..] == r1.action[r1.run..r1.add];
        DrainMatchesSequential(r1, s', exec);
        assert Reset(r1) == Reset(r);
      }
    }
  }

  /** `run_operation` on a well-formed runner with queued actions behaves as the
      reference semantics says; in particular EAGAIN leaves the slots and the
      `add` cursor alone and keeps the runner busy, so `add_action` is refused
      until the chain finishes. */
  lemma RunMatchesSequential<F, S>(r: Runner<F>, s: S, exec: Callback<F, S>)
    requires Wf(r) && r.run < r.add
    ensures
      var o := Sequential(Queued(r), s, exec);
      var res := RunOperation(r, s, exec);
      && res.state == o.state
      && (o.status == Ok && r.add == NULL ==> res.NullDeref? && res.runner.run == NULL)
      && (o.status == Ok && r.add < NULL ==> res == Returned(Ok, Reset(r), o.state))
      && (o.status == Eagain ==>
            && res == Returned(Eagain, r.(run := r.run + o.done, inOperation := true), o.state)
            && forall f: F, p: Option<Params> ::
                 AddAction(res.runner, f, p) == (CommandNotAccepted, res.runner))
      && (o.status != Ok && o.status != Eagain ==> res == Returned(o.status, Reset(r), o.state))
  {
    DrainMatchesSequential(r.(inOperation := true), s, exec);
    assert Reset(r.(inOperation := true)) == Reset(r);
  }

  /** A state invariant that every callback call preserves holds after the
      drain loop; when callbacks only return OK or EAGAIN, so does the loop. */
  lemma {:induction false} DrainPreserves<F, S>(r: Runner<F>, s: S, exec: Callback<F, S>, Inv: S -> bool)
    requires Valid(r) && r.run < NULL && r.action[r.run].func.Some?
    requires Inv(s)
    requires forall f, p, x :: Inv(x) ==> Inv(exec(f, p, x).1) && exec(f, p, x).0 in {Ok, Eagain}
    ensures var res := Drain(r, s, exec);
      && Inv(res.state)
      && (res.Returned? ==> res.status in {Ok, Eagain})
    decreases NULL - r.run
  {
    var (status, s') := exec(r.action[r.run].func.value, r.action[r.run].param, s);
    if status == Ok {
      var next := r.run + 1;
      if next < NULL && r.action[next].func.Some? {
        DrainPreserves(r.(run := next), s', exec, Inv);
      }
    }
  }

  /** The same for `run_operation`, which adds NOOP to the statuses. */
  lemma RunPreserves<F, S>(r: Runner<F>, s: S, exec: Callback<F, S>, Inv: S -> bool)
    requires Valid(r)
    requires Inv(s)
    requires forall f, p, x :: Inv(x) ==> Inv(exec(f, p, x).1) && exec(f, p, x).0 in {Ok, Eagain}
    ensures var res := RunOperation(r, s, exec);
      && Inv(res.state)
      && (res.Returned? ==> res.status in {Noop, Ok, Eagain})
  {
    if r.run < NULL && r.action[r.run].func.Some? {
      DrainPreserves(r.(inOperation := true), s, exec, Inv);
    }
  }
}

=== FILE: scenarios.dfy ===
/** Properties of the feedhold sequencing across calls: how cm1's hold state
    may move on each step, where the hold-done synchronisation comes from, and
    whole runs of steps for a hold entry, hold exits, a lost request, an
    unguarded flush and a chain that fills every action slot. */
module Scenarios {
  import opened Common
  import opened Machine
  import opened Actions
  import opened Operation
  import opened OperationProps
  import opened Sequencing

  /** The hold-entry ladder, one step at a time. cm1 reaches SYNC only from a
      request, HOLD_ACTION_START only from SYNC, PENDING only from
      HOLD_ACTION_START, HOLD only from HOLD_DONE; HOLD_DONE and EXIT_DONE are
      written only by the runtime reaching the matching synchronisation command;
      a new request reaches cm1 only while it is the active context. */
  lemma HoldLadder(sys: System, e: Input)
    requires Wf(sys.op)
    ensures var t := Next(sys, e);
      var h := sys.m.cm1.holdState;
      t.Tick? && t.sys.m.cm1.holdState != h ==>
        var h' := t.sys.m.cm1.holdState;
        && (h' == HoldOff ==> e.DoPoll?)
        && (h' == HoldRequested ==> e.DoRequestFeedhold? && sys.m.active == P1)
        && (h' == HoldSync ==> h == HoldRequested || (e.DoRequestFeedhold? && sys.m.active == P1))
        && (h' == HoldActionStart ==> h == HoldSync && e.DoPlanExecHoldStart?)
        && (h' == HoldPending ==> h == HoldActionStart && e.DoPoll?)
        && (h' == HoldDone ==>
              e.DoRuntimeSync? && Mp(sys.m, e.w).commands != [] && Mp(sys.m, e.w).commands[0] == HoldDoneSync)
        && (h' == Hold ==> h == HoldDone && e.DoPoll?)
        && (h' == HoldExitPending ==> (h == Hold || h == HoldDone) && e.DoPoll?)
        && (h' == HoldExitDone ==>
              e.DoRuntimeSync? && Mp(sys.m, e.w).commands != [] && Mp(sys.m, e.w).commands[0] == ExitDoneSync)
  {
    match e
    case DoRequestFeedhold(ty, f) =>
      var a := sys.m.active;
      var c := Cm(sys.m, a).(holdType := ty, holdFinal := f, holdState := HoldRequested);
      var s1 := sys.(m := WithCm(sys.m, a, c));
      assert Next(sys, e).sys == InitiateFeedhold(s1);
    case DoPoll(b) =>
    case DoRequestCycleStart =>
    case DoRequestQueueFlush =>
    case DoPlanExecHoldStart =>
    case DoRuntimeSync(w) =>
    case DoSetModes(w, c, mo) =>
  }

  /** `cm_feedhold_command_blocker` stops blocking only in a poll (through
      `_cycle_exit`), never through a request or a step outside this file. */
  lemma BlockerReleasedOnlyByPoll(sys: System, e: Input)
    requires Wf(sys.op)
    ensures var t := Next(sys, e);
      CommandBlocker(sys) == Eagain && t.Tick? && CommandBlocker(t.sys) == Ok ==> e.DoPoll?
  {
    HoldLadder(sys, e);
  }

  /** The hold-done synchronisation command is queued only by the first-time
      code of `_feedhold_with_actions`, run on HOLD_ACTION_START; when cm1 is the
      active context that code leaves cm1 in PENDING. */
  lemma HoldDoneQueuedOnlyByEntry(a: Action, p: Params, m: Machine, runnable: bool)
    ensures var m' := Exec(a, p, m, runnable).1;
      HoldDoneSync in m'.mp1.commands + m'.mp2.commands
      && HoldDoneSync !in m.mp1.commands + m.mp2.commands ==>
        && a == FeedholdWithActions && m.cm1.holdState == HoldActionStart
        && m'.active == P2 && m'.mp2.commands == [HoldDoneSync]
        && (m.active == P1 ==> m'.cm1.holdState == HoldPending)
  {
    var m' := Exec(a, p, m, runnable).1;
    if a == FeedholdExitWithActions && m.cm1.holdState == Hold {
      assert Mp(m', m.active).commands == Mp(m, m.active).commands + [ExitDoneSync];
      assert m.active == P1 ==> m'.mp2 == m.mp2;
      assert m'.mp1.commands + m'.mp2.commands == m.mp1.commands + m.mp2.commands + [ExitDoneSync]
        || m'.mp1.commands + m'.mp2.commands == m.mp1.commands + [ExitDoneSync] + m.mp2.commands;
    }
  }

  /** While the secondary context is active, nothing in this file puts a
      cycle-start request on cm1: requests land on cm2 and the poll, plan_exec
      and the synchronisation callbacks never write cm1's cycle state. Only an
      outside step on cm1 can, so the exit from a hold with actions needs code
      outside this file to write cm1's request. */
  lemma CycleStartOnPrimaryOnlyFromOutside(sys: System, e: Input)
    requires Wf(sys.op) && sys.m.active == P2
    requires sys.m.cm1.cycleState != CycleStartRequested
    ensures var t := Next(sys, e);
      t.Tick? && t.sys.m.cm1.cycleState == CycleStartRequested ==> e.DoSetModes? && e.w == P1
  {
    match e
    case DoRequestFeedhold(ty, f) =>
      var c := Cm(sys.m, P2).(holdType := ty, holdFinal := f, holdState := HoldRequested);
      assert Next(sys, e).sys == InitiateFeedhold(sys.(m := WithCm(sys.m, P2, c)));
    case DoPoll(b) =>
      var t := Next(sys, e);
      if t.Tick? {
        CycleStateKeptByPoll(sys, b);
      }
    case DoRequestCycleStart =>
    case DoRequestQueueFlush =>
    case DoPlanExecHoldStart =>
    case DoRuntimeSync(w) =>
    case DoSetModes(w, c, mo) =>
  }

  /** No action writes cm1's cycle state, so neither does a run of the operation. */
  lemma CycleStateKeptByRun(sys: System, b: bool)
    requires Valid(sys.op)
    ensures var t := RunOnce(sys, b);
      t.Tick? ==> t.sys.m.cm1.cycleState == sys.m.cm1.cycleState
  {
    var c := sys.m.cm1.cycleState;
    var exec := Step(b);
    var Inv := (x: Machine) => x.cm1.cycleState == c;
    forall a, p, x | Inv(x) ensures Inv(exec(a, p, x).1) && exec(a, p, x).0 in {Ok, Eagain} {
    }
    RunPreserves(sys.op, sys.m, exec, Inv);
  }

  /** A poll leaves cm1's cycle state as it found it: a cycle start it acts on
      stays requested, since only `cm_cycle_start`, outside this file, moves it. */
  lemma CycleStateKeptByPoll(sys: System, b: bool)
    requires Valid(sys.op)
    ensures var t := SequencingPoll(sys, b);
      t.Tick? ==> t.sys.m.cm1.cycleState == sys.m.cm1.cycleState
  {
    var s2 := PromoteRequests(sys);
    assert s2.m.cm1.cycleState == sys.m.cm1.cycleState;
    if s2.m.cm1.cycleState == CycleStartRequested && s2.m.cm1.holdState != HoldOff {
      var op := if s2.m.cm1.holdState == Hold then ExitChain(s2) else s2.op;
      CycleStateKeptByRun(s2.(op := op), b);
    }
    var s3 := if s2.m.cm1.cycleState == CycleStartRequested then InitiateCycleStart(s2, b) else Some(s2);
    if s3.Some? {
      CycleStateKeptByRun(s3.value, b);
    }
  }

  /** A machine at rest on the primary context, with an idle empty runner. */
  predicate AtRest(sys: System) {
    && Empty(sys.op)
    && sys.m.active == P1
    && sys.m.cm1.holdState == HoldOff
    && sys.m.cm1.flushState == FlushOff
    && sys.m.cm1.cycleState != CycleStartRequested
  }

  /** A feedhold with actions, requested while cm1's motion runs: the request
      moves cm1 to SYNC at once; plan_exec starts the actions; the next poll runs
      the entry actions on the secondary context (optional Z lift in incremental
      mode, spindle pause, coolant pause) and waits; the runtime reaches the
      synchronisation command; the next poll enters HOLD and completes the
      operation. The secondary context starts at mr1's position, which is the
      return point; without a Z lift it is still there in HOLD. */
  lemma EnterHoldWithActions(sys: System, b: bool)
    requires AtRest(sys) && sys.m.cm1.motionState == MotionRun
    ensures
      var s1 := RequestFeedhold(sys, TypeActions, FinalCycle);
      var t2 := SequencingPoll(s1, b);
      t2.Tick? &&
      var s3 := PlanExecHoldStart(t2.sys);
      var t4 := SequencingPoll(s3, b);
      t4.Tick? &&
      var s5 := RuntimeReachesCommand(t4.sys, P2);
      var t6 := SequencingPoll(s5, b);
      && t6.Tick?
      && s1.m.cm1.holdState == HoldSync && Funcs(s1.op) == [FeedholdWithActions]
      && t2.status == Eagain && t2.sys.m.cm1.holdState == HoldSync
      && s3.m.cm1.holdState == HoldActionStart
      && t4.status == Eagain && t4.sys.m.cm1.holdState == HoldPending && t4.sys.m.active == P2
      && s5.m.cm1.holdState == HoldDone
      && t6.status == Ok && t6.sys.m.cm1.holdState == Hold && Empty(t6.sys.op)
      && t6.sys.m.active == P2
      && t6.sys.m.cm2.g30Position == sys.m.mp1.runtimePosition
      && (sys.m.cm1.zLift.None? ==>
            && t6.sys.m.cm2.position == sys.m.mp1.runtimePosition
            && t6.sys.m.mp2.position == sys.m.mp1.runtimePosition
            && t6.sys.m.mp2.runtimePosition == sys.m.mp1.runtimePosition)
      && t6.sys.m.trace == sys.m.trace + EntryEvents(sys.m.cm1.zLift, sys.m.cm1.distanceMode) + [StatusReport]
  {
    var s1 := RequestFeedhold(sys, TypeActions, FinalCycle);
    EntryRequestThenWait(sys, b);
    var t2 := SequencingPoll(s1, b);
    var s3 := PlanExecHoldStart(t2.sys);
    assert s3.m == sys.m.(cm1 := sys.m.cm1.(holdType := TypeActions, holdFinal := FinalCycle, holdState := HoldActionStart));
    EntryFromActionStart(s3, b);
  }

  /** The three steps of a hold entry after plan_exec: the poll runs the entry
      actions, the runtime reaches the hold-done command, the poll enters HOLD.
      The secondary context keeps what the entry actions gave it. */
  lemma EntryFromActionStart(s3: System, b: bool)
    requires EntryChainStarted(s3.op) && s3.m.cm1.holdState == HoldActionStart
    requires s3.m.cm1.flushState != FlushRequested && s3.m.cm1.cycleState != CycleStartRequested
    ensures
      var m4 := EntryActions(s3.m);
      var t4 := SequencingPoll(s3, b);
      t4 == Tick(Eagain, System(m4, s3.op)) &&
      var s5 := RuntimeReachesCommand(t4.sys, P2);
      var t6 := SequencingPoll(s5, b);
      && s5.m.cm1.holdState == HoldDone
      && t6.Tick? && t6.status == Ok && t6.sys.op == Reset(s3.op)
      && t6.sys.m.cm1.holdState == Hold && t6.sys.m.active == P2
      && t6.sys.m.cm2 == m4.cm2
      && t6.sys.m.mp2.position == m4.mp2.position
      && t6.sys.m.mp2.runtimePosition == m4.mp2.runtimePosition
      && t6.sys.m.trace == m4.trace + [StatusReport]
  {
    EntryActionsPoll(s3, b);
    var m4 := EntryActions(s3.m);
    var t4 := SequencingPoll(s3, b);
    var s5 := RuntimeReachesCommand(t4.sys, P2);
    var m5 := FireSync(m4.(mp2 := m4.mp2.(commands := [])), HoldDoneSync);
    assert s5 == System(m5, s3.op);
    EntryDonePoll(s5, b);
  }

  /** The entry chain once started: `_feedhold_with_actions` alone, waiting. */
  predicate EntryChainStarted(op: Runner<Action>) {
    && Wf(op) && op.inOperation && op.run == 0
    && Funcs(op) == [FeedholdWithActions]
  }

  /** The request and the first poll of a hold entry with actions: the entry
      action waits while cm1 is in SYNC. */
  lemma EntryRequestThenWait(sys: System, b: bool)
    requires AtRest(sys) && sys.m.cm1.motionState == MotionRun
    ensures var s1 := RequestFeedhold(sys, TypeActions, FinalCycle);
      && s1.m == sys.m.(cm1 := sys.m.cm1.(holdType := TypeActions, holdFinal := FinalCycle, holdState := HoldSync))
      && Funcs(s1.op) == [FeedholdWithActions]
      && SequencingPoll(s1, b) == Tick(Eagain, s1.(op := s1.op.(inOperation := true)))
      && EntryChainStarted(s1.op.(inOperation := true))
  {
    var s1 := RequestFeedhold(sys, TypeActions, FinalCycle);
    assert Funcs(s1.op) == [FeedholdWithActions];
    assert s1.op.add == 1 && !s1.op.inOperation && s1.op.run == 0;
    assert PromoteRequests(s1) == s1;
  }

  /** The poll that finds HOLD_ACTION_START runs the entry actions and waits. */
  lemma EntryActionsPoll(sys: System, b: bool)
    requires EntryChainStarted(sys.op) && sys.m.cm1.holdState == HoldActionStart
    requires sys.m.cm1.flushState != FlushRequested && sys.m.cm1.cycleState != CycleStartRequested
    ensures SequencingPoll(sys, b) == Tick(Eagain, System(EntryActions(sys.m), sys.op))
  {
    assert PromoteRequests(sys) == sys;
  }

  /** The poll that finds HOLD_DONE enters HOLD and completes the operation. */
  lemma EntryDonePoll(sys: System, b: bool)
    requires EntryChainStarted(sys.op) && sys.m.cm1.holdState == HoldDone
    requires sys.m.cm1.flushState != FlushRequested && sys.m.cm1.cycleState != CycleStartRequested
    ensures SequencingPoll(sys, b) == Tick(Ok, System(sys.m.(cm1 := sys.m.cm1.(holdState := Hold)), Reset(sys.op)))
  {
    assert PromoteRequests(sys) == sys;
  }

  /** A resumed hold without actions: the cycle-start request enqueues
      `_feedhold_exit_with_no_actions` and `_cycle_exit`, which both complete in
      the run made by `_initiate_cycle_start`; the hold is OFF and the cycle is
      restarted or ended, with no spindle, coolant or motion call. The poll's own
      run then finds the runner empty, so the tick reports NOOP although a whole
      operation ran during it. */
  lemma ExitHoldWithoutActions(sys: System, b: bool)
    requires Empty(sys.op)
    requires sys.m.cm1.holdState == Hold && sys.m.cm1.holdType == TypeNoActions
    requires sys.m.cm1.holdFinal == FinalCycle
    requires sys.m.cm1.cycleState == CycleStartRequested && sys.m.cm1.flushState != FlushRequested
    ensures var t := SequencingPoll(sys, b);
      && t.Tick? && t.status == Noop
      && t.sys.m.cm1 == sys.m.cm1.(holdState := HoldOff)
      && t.sys.m.active == sys.m.active
      && Empty(t.sys.op)
      && t.sys.m.trace == sys.m.trace + (if b then [CycleStart, RequestExecMove] else [CycleEnd])
  {
    assert PromoteRequests(sys) == sys;
    var op := AddAll(sys.op, [FeedholdExitWithNoActions, CycleExit]);
    assert Funcs(op) == [FeedholdExitWithNoActions, CycleExit];
    var c := CycleExitStep(sys.m, b);
    var r1 := op.(inOperation := true, run := 1);
    ResetKeepsOnlySlots(r1, op);
    assert Drain(r1, sys.m, Step(b)) == Returned(Ok, Reset(op), c.1);
    assert RunOnce(sys.(op := op), b) == Tick(Ok, System(c.1, Reset(op)));
  }

  /** A hold without actions whose final is not FINAL_CYCLE never leaves HOLD
      through this file: the exit and the terminal action both return OK and
      neither writes the hold state. */
  lemma NoActionsNonCycleFinalStaysInHold(sys: System, b: bool)
    requires Empty(sys.op)
    requires sys.m.cm1.holdState == Hold && sys.m.cm1.holdType == TypeNoActions
    requires sys.m.cm1.holdFinal != FinalCycle
    requires sys.m.cm1.cycleState == CycleStartRequested && sys.m.cm1.flushState != FlushRequested
    ensures var t := SequencingPoll(sys, b);
      && t.Tick? && t.status == Noop
      && t.sys.m == sys.m
      && Empty(t.sys.op)
  {
    assert PromoteRequests(sys) == sys;
    var fs := [FeedholdExitWithNoActions] + TerminalActions(sys.m.cm1.holdFinal);
    var op := AddAll(sys.op, fs);
    assert |fs| == 2;
    assert Funcs(op) == fs;
    InertChainRuns(op, sys.m, b);
    assert RunOnce(sys.(op := op), b) == Tick(Ok, System(sys.m, Reset(op)));
    assert InitiateCycleStart(sys, b) == Some(System(sys.m, Reset(op)));
  }

  /** The chain a cycle start enqueues for a hold with actions, once started. */
  predicate ExitChainStarted(op: Runner<Action>, f: HoldFinal) {
    && Wf(op) && op.inOperation && op.run == 0
    && Funcs(op) == [FeedholdExitWithActions] + ExitFinalActions(f)
  }

  /** First poll of a resumed hold with actions: the exit actions run once and
      the callback waits in EXIT_PENDING; it is called a second time in the same
      tick, doing nothing. */
  lemma ExitWithActionsFirstPoll(sys: System, b: bool)
    requires Empty(sys.op)
    requires sys.m.cm1.holdState == Hold && sys.m.cm1.holdType == TypeActions
    requires sys.m.cm1.cycleState == CycleStartRequested && sys.m.cm1.flushState != FlushRequested
    ensures var t := SequencingPoll(sys, b);
      && t.Tick? && t.status == Eagain
      && t.sys.m == ExitActions(sys.m)
      && ExitChainStarted(t.sys.op, sys.m.cm1.holdFinal)
  {
    var f := sys.m.cm1.holdFinal;
    assert PromoteRequests(sys) == sys;
    var fs := [FeedholdExitWithActions] + ExitFinalActions(f);
    var op := AddAll(sys.op, fs);
    assert Funcs(op) == fs;
    var m1 := ExitActions(sys.m);
    var busy := op.(inOperation := true);
    assert Funcs(busy) == fs;
    assert RunOnce(sys.(op := op), b) == Tick(Eagain, System(m1, busy));
  }

  /** The poll after the exit synchronisation: `_feedhold_exit_with_actions`
      finalises (primary context, resynchronisation after a flush) and the final
      action runs, all inside the cycle-start run; the poll's own run is NOOP. */
  lemma ExitWithActionsFinalPoll(sys: System, b: bool)
    requires ExitChainStarted(sys.op, sys.m.cm1.holdFinal)
    requires sys.m.cm1.holdState == HoldExitDone
    requires sys.m.cm1.cycleState == CycleStartRequested && sys.m.cm1.flushState != FlushRequested
    ensures var f := sys.m.cm1.holdFinal;
      var m3 := ExitFinalise(sys.m);
      var t := SequencingPoll(sys, b);
      && t.Tick? && t.status == Noop && Empty(t.sys.op)
      && t.sys.m == (if f == FinalCycle then CycleExitStep(m3, b).1 else m3)
  {
    var f := sys.m.cm1.holdFinal;
    assert PromoteRequests(sys) == sys;
    var m3 := ExitFinalise(sys.m);
    var m4 := if f == FinalCycle then CycleExitStep(m3, b).1 else m3;
    ExitChainFinishes(sys.op, sys.m, b);
    assert RunOnce(sys, b) == Tick(Ok, System(m4, Reset(sys.op)));
    assert InitiateCycleStart(sys, b) == Some(System(m4, Reset(sys.op)));
  }

  /** The started exit chain, run on EXIT_DONE: the exit finalises with OK, the
      final action runs in the same call, and the runner is reset. */
  lemma ExitChainFinishes(op: Runner<Action>, m: Machine, b: bool)
    requires ExitChainStarted(op, m.cm1.holdFinal) && m.cm1.holdState == HoldExitDone
    ensures var f := m.cm1.holdFinal;
      var m3 := ExitFinalise(m);
      RunOperation(op, m, Step(b))
        == Returned(Ok, Reset(op), if f == FinalCycle then CycleExitStep(m3, b).1 else m3)
  {
    var f := m.cm1.holdFinal;
    var m3 := ExitFinalise(m);
    var r1 := op.(run := 1);
    ResetKeepsOnlySlots(r1, op);
    assert Step(b)(FeedholdExitWithActions, op.action[0].param, m) == (Ok, m3);
    if f == FinalCycle {
      assert op.action[1].func == Some(CycleExit);
      assert Drain(r1, m3, Step(b)) == Returned(Ok, Reset(op), CycleExitStep(m3, b).1);
    } else {
      assert op.action[1].func == Some(TerminalActions(f)[0]);
      assert Drain(r1, m3, Step(b)) == Returned(Ok, Reset(op), m3);
    }
  }

  /** A resumed hold with actions, on the secondary context: the first poll runs
      the exit actions and waits in EXIT_PENDING; the runtime of mp2 reaches the
      exit synchronisation command; the next poll finalises the exit on the
      primary context, resets the position after a flush and clears the flush
      state, then runs the final action. With FINAL_CYCLE the hold ends in OFF;
      with any other final it stays in EXIT_DONE, because the finalisation does
      not write the hold state. */
  lemma ExitHoldWithActions(sys: System, b: bool)
    requires Empty(sys.op) && sys.m.active == P2 && sys.m.mp2.commands == []
    requires sys.m.cm1.holdState == Hold && sys.m.cm1.holdType == TypeActions
    requires sys.m.cm1.cycleState == CycleStartRequested && sys.m.cm1.flushState != FlushRequested
    ensures
      var f := sys.m.cm1.holdFinal;
      var t1 := SequencingPoll(sys, b);
      t1.Tick? &&
      var s2 := RuntimeReachesCommand(t1.sys, P2);
      var t3 := SequencingPoll(s2, b);
      && t1.status == Eagain && t1.sys.m.cm1.holdState == HoldExitPending
      && t1.sys.m.mp2.commands == [ExitDoneSync]
      && !t1.sys.m.cm2.returnFlags[AXIS_Z]
      && s2.m.cm1.holdState == HoldExitDone
      && t3.Tick? && t3.status == Noop && Empty(t3.sys.op)
      && t3.sys.m.active == P1
      && t3.sys.m.cm1.holdState == (if f == FinalCycle then HoldOff else HoldExitDone)
      && t3.sys.m.cm1.flushState == (if sys.m.cm1.flushState == FlushWasRun then FlushOff else sys.m.cm1.flushState)
      && t3.sys.m.trace == sys.m.trace + ExitEvents(sys.m) + [StatusReport]
           + (if sys.m.cm1.flushState == FlushWasRun then [ResetPositionToAbsolute(P1)] else [])
           + (if f == FinalCycle then (if b then [CycleStart, RequestExecMove] else [CycleEnd]) else [])
  {
    ExitWithActionsFirstPoll(sys, b);
    var t1 := SequencingPoll(sys, b);
    var s2 := RuntimeReachesCommand(t1.sys, P2);
    assert s2.m == FireSync(t1.sys.m.(mp2 := t1.sys.m.mp2.(commands := [])), ExitDoneSync);
    assert s2.m.trace == sys.m.trace + ExitEvents(sys.m) + [StatusReport];
    ExitFromExitDone(s2, b);
  }

  /** The last poll of an exit with actions, stated against the state it starts
      from. */
  lemma ExitFromExitDone(s2: System, b: bool)
    requires ExitChainStarted(s2.op, s2.m.cm1.holdFinal)
    requires s2.m.cm1.holdState == HoldExitDone
    requires s2.m.cm1.cycleState == CycleStartRequested && s2.m.cm1.flushState != FlushRequested
    ensures
      var f := s2.m.cm1.holdFinal;
      var t3 := SequencingPoll(s2, b);
      && t3.Tick? && t3.status == Noop && Empty(t3.sys.op)
      && t3.sys.m.active == P1
      && t3.sys.m.cm1.holdState == (if f == FinalCycle then HoldOff else HoldExitDone)
      && t3.sys.m.cm1.flushState == (if s2.m.cm1.flushState == FlushWasRun then FlushOff else s2.m.cm1.flushState)
      && t3.sys.m.trace == s2.m.trace
           + (if s2.m.cm1.flushState == FlushWasRun then [ResetPositionToAbsolute(P1)] else [])
           + (if f == FinalCycle then (if b then [CycleStart, RequestExecMove] else [CycleEnd]) else [])
  {
    ExitWithActionsFinalPoll(s2, b);
  }

  /** The finalisation of `_feedhold_exit_with_actions` applied `n` times in a
      row. */
  function FinaliseTimes(m: Machine, n: nat): (m': Machine)
    ensures |m'.trace| >= |m.trace| && m'.trace[..|m.trace|] == m.trace
    decreases n
  {
    if n == 0 then m else FinaliseTimes(ExitFinalise(m), n - 1)
  }

  /** Without a flush behind it, finalising again adds no event. */
  lemma {:induction false} FinaliseWithoutFlushIsSilent(m: Machine, n: nat)
    requires m.cm1.flushState != FlushWasRun
    ensures FinaliseTimes(m, n).trace == m.trace
    decreases n
  {
    if n > 0 {
      FinaliseWithoutFlushIsSilent(ExitFinalise(m), n - 1);
    }
  }

  /** However often the finalisation runs, the position is reset at most once:
      exactly once after a flush, never otherwise, because the first run clears
      the flush state. */
  lemma {:induction false} ExitFinaliseResyncsOnce(m: Machine, n: nat)
    ensures var m' := FinaliseTimes(m, n);
      Count(m'.trace[|m.trace|..], ResetPositionToAbsolute(P1))
        == (if n >= 1 && m.cm1.flushState == FlushWasRun then 1 else 0)
  {
    var e := ResetPositionToAbsolute(P1);
    if n == 0 {
      assert FinaliseTimes(m, n).trace[|m.trace|..] == [];
    } else {
      var m1 := ExitFinalise(m);
      FinaliseWithoutFlushIsSilent(m1, n - 1);
      assert FinaliseTimes(m, n).trace == m1.trace;
      if m.cm1.flushState == FlushWasRun {
        assert m1.trace[|m.trace|..] == [e];
      } else {
        assert m1.trace[|m.trace|..] == [];
      }
    }
  }

  /** Requests land on the ACTIVE context but the poll reads cm1: while the
      secondary context is active, a cycle-start or flush request sets cm2's
      state and the poll leaves cm1's hold and the runner untouched. */
  lemma RequestLostDuringSecondaryHold(sys: System, b: bool, flush: bool)
    requires Empty(sys.op) && sys.m.active == P2
    requires sys.m.cm1.holdState == Hold
    requires sys.m.cm1.cycleState != CycleStartRequested && sys.m.cm1.flushState != FlushRequested
    ensures var s1 := if flush then RequestQueueFlush(sys) else RequestCycleStart(sys);
      var t := SequencingPoll(s1, b);
      && (if flush then s1.m.cm2.flushState == FlushRequested else s1.m.cm2.cycleState == CycleStartRequested)
      && t == Tick(Noop, s1)
      && t.sys.m.cm1 == sys.m.cm1
  {
    var s1 := if flush then RequestQueueFlush(sys) else RequestCycleStart(sys);
    assert PromoteRequests(s1) == s1;
  }

  /** The queue flush is not guarded by a hold: a flush requested while the
      primary context runs with no hold aborts arcs, resets mp1 (dropping its
      queued synchronisation commands) and marks the flush as run. */
  lemma FlushOutsideHold(sys: System, b: bool)
    requires AtRest(sys)
    ensures var t := SequencingPoll(RequestQueueFlush(sys), b);
      && t.Tick? && t.status == Noop
      && t.sys.m.cm1 == sys.m.cm1.(flushState := FlushWasRun)
      && t.sys.m.mp1.commands == []
      && t.sys.m.trace == sys.m.trace + [AbortArc(P1), PlannerReset(P1)]
      && t.sys.op == sys.op
  {
    var s1 := RequestQueueFlush(sys);
    assert PromoteRequests(s1) == InitiateQueueFlush(s1);
  }

  /** Actions whose call returns OK and changes nothing. */
  predicate Inert(a: Action) {
    a !in {FeedholdWithActions, FeedholdExitWithActions, CycleExit}
  }

  /** A chain of inert actions runs to its end within one call, leaving the
      machine as it was. */
  lemma {:induction false} InertChainCompletes(q: seq<Slot<Action>>, m: Machine, b: bool)
    requires |q| > 0
    requires forall i :: 0 <= i < |q| ==> q[i].func.Some? && Inert(q[i].func.value)
    ensures Sequential(q, m, Step(b)) == Outcome(Ok, |q|, m)
    decreases |q|
  {
    assert Exec(q[0].func.value, q[0].param, m, b) == (Ok, m);
    if |q| > 1 {
      InertChainCompletes(q[1..], m, b);
    }
  }

  /** An idle chain of inert actions that leaves a slot free completes in one
      call, resetting the runner and leaving the machine as it was. */
  lemma InertChainRuns(op: Runner<Action>, m: Machine, b: bool)
    requires Wf(op) && !op.inOperation && 0 < op.add < NULL
    requires forall i :: 0 <= i < op.add ==> Inert(Funcs(op)[i])
    ensures RunOperation(op, m, Step(b)) == Returned(Ok, Reset(op), m)
  {
    var q := Queued(op);
    assert forall i :: 0 <= i < |q| ==> q[i].func == Some(Funcs(op)[i]);
    InertChainCompletes(q, m, b);
    RunMatchesSequential(op, m, Step(b));
  }

  /** The chain each request for a hold without actions ending in a program
      stop adds: `k` pairs of entry and terminal action. */
  function StopPairs(k: nat): (fs: seq<Action>)
    ensures |fs| == 2 * k
    ensures forall i :: 0 <= i < |fs| ==> Inert(fs[i])
  {
    if k == 0 then [] else [FeedholdWithNoActions, ProgramStop] + StopPairs(k - 1)
  }

  function StopRequests(k: nat): (es: seq<Input>)
    ensures |es| == k
  {
    if k == 0 then [] else [DoRequestFeedhold(TypeNoActions, FinalStop)] + StopRequests(k - 1)
  }

  /** A run of steps is its first step followed by the rest. */
  lemma ExecuteCons(sys: System, e: Input, es: seq<Input>)
    requires Valid(sys.op)
    ensures Execute(sys, [e] + es) == (var t := Next(sys, e); if t.Crash? then Crash else Execute(t.sys, es))
  {
    assert ([e] + es)[1..] == es;
  }

  /** One such request while cm1's motion runs on the primary context. */
  lemma StopRequestWhileRunning(sys: System)
    requires Wf(sys.op) && !sys.op.inOperation && sys.op.add + 2 <= NULL
    requires sys.m.active == P1 && sys.m.cm1.motionState == MotionRun
    ensures var s1 := RequestFeedhold(sys, TypeNoActions, FinalStop);
      && Wf(s1.op) && !s1.op.inOperation
      && Funcs(s1.op) == Funcs(sys.op) + [FeedholdWithNoActions, ProgramStop]
      && s1.m.active == P1
      && s1.m.cm1 == sys.m.cm1.(holdType := TypeNoActions, holdFinal := FinalStop, holdState := HoldSync)
  {
  }

  /** While cm1's motion runs on the primary context, every feedhold request is
      initiated at once and enqueues its two actions behind the previous ones,
      although the hold is already in SYNC. */
  lemma {:induction false} RequestsAccumulate(sys: System, k: nat)
    requires Wf(sys.op) && !sys.op.inOperation && sys.op.add + 2 * k <= NULL
    requires sys.m.active == P1 && sys.m.cm1.motionState == MotionRun
    ensures var t := Execute(sys, StopRequests(k));
      && t.Tick?
      && Wf(t.sys.op) && !t.sys.op.inOperation
      && Funcs(t.sys.op) == Funcs(sys.op) + StopPairs(k)
      && t.sys.m.active == P1 && t.sys.m.cm1.motionState == MotionRun
      && t.sys.m.cm1.cycleState == sys.m.cm1.cycleState
      && t.sys.m.cm1.flushState == sys.m.cm1.flushState
      && (k > 0 ==> t.sys.m.cm1.holdState == HoldSync)
      && (k == 0 ==> t.sys.m.cm1.holdState == sys.m.cm1.holdState)
    decreases k
  {
    if k > 0 {
      var e := DoRequestFeedhold(TypeNoActions, FinalStop);
      StopRequestWhileRunning(sys);
      var s1 := Next(sys, e).sys;
      ExecuteCons(sys, e, StopRequests(k - 1));
      RequestsAccumulate(s1, k - 1);
      var t := Execute(s1, StopRequests(k - 1));
      assert StopRequests(k) == [e] + StopRequests(k - 1);
      assert Execute(sys, StopRequests(k)) == t;
      assert StopPairs(k) == [FeedholdWithNoActions, ProgramStop] + StopPairs(k - 1);
      assert Funcs(t.sys.op) == Funcs(sys.op) + StopPairs(k);
    }
  }

  /** A chain that takes all ACTION_MAX slots and completes: after the last
      action the `run` cursor follows the last slot's NULL link and the next
      test dereferences it. */
  lemma FullChainCrashes(sys: System, b: bool)
    requires Wf(sys.op) && !sys.op.inOperation && sys.op.add == NULL
    requires forall i :: 0 <= i < NULL ==> Inert(Funcs(sys.op)[i])
    requires sys.m.cm1.holdState != HoldRequested && sys.m.cm1.flushState != FlushRequested
    requires sys.m.cm1.cycleState != CycleStartRequested
    ensures SequencingPoll(sys, b) == Crash
  {
    assert PromoteRequests(sys) == sys;
    var q := Queued(sys.op);
    assert forall i :: 0 <= i < |q| ==> q[i].func == Some(Funcs(sys.op)[i]);
    InertChainCompletes(q, sys.m, b);
    RunMatchesSequential(sys.op, sys.m, Step(b));
  }

  /** Six requests for a hold without actions ending in a program stop, made
      while the primary motion runs, fill all twelve slots; the next poll runs
      the whole chain and dereferences the NULL cursor. */
  lemma SixRequestsOverrunTheRunner(sys: System, b: bool)
    requires AtRest(sys) && sys.m.cm1.motionState == MotionRun
    ensures var t := Execute(sys, StopRequests(6));
      && t.Tick? && t.sys.op.add == NULL && t.sys.m.cm1.holdState == HoldSync
      && SequencingPoll(t.sys, b) == Crash
  {
    RequestsAccumulate(sys, 6);
    var t := Execute(sys, StopRequests(6));
    assert Funcs(sys.op) == [];
    var fs := StopPairs(6);
    assert Funcs(t.sys.op) == fs;
    assert t.sys.op.add == |fs| == NULL;
    assert forall i :: 0 <= i < NULL ==> Inert(Funcs(t.sys.op)[i]);
    FullChainCrashes(t.sys, b);
  }
}

=== FILE: sequencing.dfy ===
/** Feedhold, cycle-start and queue-flush sequencing: the request setters, the
    `_initiate_*` functions, `cm_queue_flush`, the sequencing poll, the hold
    queries, and the environment transitions made outside this file (plan_exec
    starting the hold actions, the runtime reaching a queued synchronisation
    command, the cycle and motion state set by the rest of the machine). */
module Sequencing {
  import opened Common
  import opened Machine
  import opened Actions
  import opened Operation
  import opened OperationProps

  /** Everything the sequencing touches: the machine and the runner `op`. */
  datatype System = System(m: Machine, op: Runner<Action>)

  /** Result of a call that runs the operation: its status, or the NULL `run`
      cursor being dereferenced, after which the program's behaviour is undefined. */
  datatype Tick = Tick(status: Stat, sys: System) | Crash

  /** The action callbacks as the runner calls them; `runnable` is the answer
      `mp_has_runnable_buffer(&mp1)` gives during this call. */
  function Step(runnable: bool): (exec: Callback<Action, Machine>) {
    (a: Action, p: Params, m: Machine) => Exec(a, p, m, runnable)
  }

  /** The entry action `_initiate_feedhold` enqueues for each hold type. */
  function EntryAction(t: HoldType): (a: Action)
    ensures a == FeedholdWithActions <==> t == TypeActions
    ensures a == FeedholdWithSync <==> t == TypeSync
    ensures a !in [FeedholdExitWithActions, FeedholdExitWithNoActions, CycleExit]
  {
    match t
    case TypeActions => FeedholdWithActions
    case TypeNoActions => FeedholdWithNoActions
    case TypeSync => FeedholdWithSync
  }

  /** The terminal action for each hold final; none for FINAL_CYCLE. */
  function TerminalActions(f: HoldFinal): (fs: seq<Action>)
    ensures |fs| <= 1
    ensures |fs| == 0 <==> f == FinalCycle
    ensures CycleExit !in fs
  {
    match f
    case FinalCycle => []
    case FinalStop => [ProgramStop]
    case FinalEnd => [ProgramEnd]
    case FinalAlarm => [Alarm]
    case FinalShutdown => [Shutdown]
    case FinalInterlock => [Interlock]
  }

  /** The exit action `_initiate_cycle_start` enqueues; none for the sync type. */
  function ExitActionsFor(t: HoldType): (fs: seq<Action>)
    ensures |fs| <= 1
    ensures |fs| == 0 <==> t == TypeSync
    ensures fs == [FeedholdExitWithActions] <==> t == TypeActions
    ensures CycleExit !in fs && EntryAction(t) !in fs
  {
    match t
    case TypeActions => [FeedholdExitWithActions]
    case TypeNoActions => [FeedholdExitWithNoActions]
    case TypeSync => []
  }

  /** The action appended after the exit: `_cycle_exit` for FINAL_CYCLE,
      otherwise the same terminal action as on entry. */
  function ExitFinalActions(f: HoldFinal): (fs: seq<Action>)
    ensures |fs| == 1
    ensures f == FinalCycle <==> fs == [CycleExit]
  {
    if f == FinalCycle then [CycleExit] else TerminalActions(f)
  }

  /** `cm_has_hold`: only cm1 is consulted, so a hold on the secondary context
      alone is not reported (`HoldReadsOnlyPrimary`). */
  function HasHold(sys: System): (h: bool)
    ensures h <==> sys.m.cm1.holdState != HoldOff
  {
    sys.m.cm1.holdState != HoldOff
  }

  /** Neither `cm_has_hold` nor the command blocker looks at the secondary
      context, its planner, the selector or the runner. */
  lemma HoldReadsOnlyPrimary(sys: System, c2: Context, p2: Planner, w: Which, op: Runner<Action>)
    ensures var other := System(sys.m.(cm2 := c2, mp2 := p2, active := w), op);
      && (HasHold(other) <==> HasHold(sys))
      && CommandBlocker(other) == CommandBlocker(sys)
  {
  }

  /** `cm_feedhold_command_blocker`: EAGAIN exactly while cm1 has a hold (or a
      pending hold request), OK otherwise. */
  function CommandBlocker(sys: System): (s: Stat)
    ensures s == Ok || s == Eagain
    ensures s == Eagain <==> HasHold(sys)
  {
    if sys.m.cm1.holdState != HoldOff then Eagain else Ok
  }

  /** `_initiate_feedhold`. A request on cm1 is acted on only while cm1's motion
      is running: the entry action for the hold type, then the terminal action
      for the hold final, are enqueued and cm1 goes to SYNC even if the runner
      refused them. Otherwise cm1 is left alone and a running request on cm2
      enqueues only `_feedhold_with_sync`. */
  function InitiateFeedhold(sys: System): (r: System)
    requires Valid(sys.op)
    ensures Valid(r.op)
    ensures Wf(sys.op) ==> Wf(r.op) && r.op.add <= sys.op.add + 2
    ensures r.m.active == sys.m.active && r.m.trace == sys.m.trace
    ensures r.m.mp1 == sys.m.mp1 && r.m.mp2 == sys.m.mp2
    ensures var c := sys.m.cm1;
      if c.holdState == HoldRequested && c.motionState == MotionRun then
        && r.m.cm1 == c.(holdState := HoldSync)
        && r.m.cm2 == sys.m.cm2
        && (sys.op.inOperation ==> r.op == sys.op)
        && (Wf(sys.op) && !sys.op.inOperation && sys.op.add + 2 <= NULL ==>
              Funcs(r.op) == Funcs(sys.op) + [EntryAction(c.holdType)] + TerminalActions(c.holdFinal))
      else
        && r.m.cm1 == c
        && var c2 := sys.m.cm2;
           if c2.holdState == HoldRequested && c2.motionState == MotionRun then
             && r.m.cm2 == c2.(holdState := HoldSync)
             && (Wf(sys.op) && !sys.op.inOperation && sys.op.add < NULL ==>
                   Funcs(r.op) == Funcs(sys.op) + [FeedholdWithSync])
           else r == sys
  {
    var c := sys.m.cm1;
    if c.holdState == HoldRequested && c.motionState == MotionRun then
      var op := AddAll(sys.op, [EntryAction(c.holdType)] + TerminalActions(c.holdFinal));
      System(sys.m.(cm1 := c.(holdState := HoldSync)), op)
    else if sys.m.cm2.holdState == HoldRequested && sys.m.cm2.motionState == MotionRun then
      System(sys.m.(cm2 := sys.m.cm2.(holdState := HoldSync)), AddAll(sys.op, [FeedholdWithSync]))
    else sys
  }

  /** `cm_request_feedhold`: record type, final and the request on the active
      context, then try to initiate at once. */
  function RequestFeedhold(sys: System, t: HoldType, f: HoldFinal): (r: System)
    requires Valid(sys.op)
    ensures Valid(r.op)
    ensures Wf(sys.op) ==> Wf(r.op)
    ensures var a := sys.m.active;
      && Cm(r.m, a).holdType == t && Cm(r.m, a).holdFinal == f
      && (Cm(r.m, a).holdState == HoldRequested || Cm(r.m, a).holdState == HoldSync)
    ensures r.m.active == sys.m.active && r.m.trace == sys.m.trace
    ensures r.m.mp1 == sys.m.mp1 && r.m.mp2 == sys.m.mp2
    ensures sys.m.active == P1 ==>
      && (r.m.cm1.holdState == HoldSync <==> sys.m.cm1.motionState == MotionRun)
      && (sys.m.cm1.motionState == MotionRun ==>
            r.m.cm1 == sys.m.cm1.(holdType := t, holdFinal := f, holdState := HoldSync)
            && r.m.cm2 == sys.m.cm2)
    ensures sys.m.active == P1 && sys.m.cm1.motionState == MotionRun && Wf(sys.op) ==>
      && (sys.op.inOperation ==> r.op == sys.op)
      && (!sys.op.inOperation && sys.op.add + 2 <= NULL ==>
            Funcs(r.op) == Funcs(sys.op) + [EntryAction(t)] + TerminalActions(f))
    ensures sys.m.active == P1 && sys.m.cm1.motionState != MotionRun ==>
      && r.m.cm1 == sys.m.cm1.(holdType := t, holdFinal := f, holdState := HoldRequested)
      && var c2 := sys.m.cm2;
         if c2.holdState == HoldRequested && c2.motionState == MotionRun then r.m.cm2 == c2.(holdState := HoldSync)
         else r.m.cm2 == c2 && r.op == sys.op
    ensures sys.m.active == P2 ==>
      var c1 := sys.m.cm1;
      var first := c1.holdState == HoldRequested && c1.motionState == MotionRun;
      && r.m.cm1 == (if first then c1.(holdState := HoldSync) else c1)
      && r.m.cm2.(holdState := HoldRequested) == sys.m.cm2.(holdType := t, holdFinal := f, holdState := HoldRequested)
      && (r.m.cm2.holdState == HoldSync <==> !first && sys.m.cm2.motionState == MotionRun)
      && ((!first && sys.m.cm2.motionState == MotionRun && Wf(sys.op) && !sys.op.inOperation
            && sys.op.add < NULL) ==> Funcs(r.op) == Funcs(sys.op) + [FeedholdWithSync])
  {
    var a := sys.m.active;
    var c := Cm(sys.m, a).(holdType := t, holdFinal := f, holdState := HoldRequested);
    InitiateFeedhold(sys.(m := WithCm(sys.m, a, c)))
  }

  /** `cm_request_cycle_start`: sets the request on the ACTIVE context only. */
  function RequestCycleStart(sys: System): (r: System)
    ensures Cm(r.m, sys.m.active).cycleState == CycleStartRequested
    ensures Cm(r.m, sys.m.active) == Cm(sys.m, sys.m.active).(cycleState := CycleStartRequested)
    ensures r.m.trace == sys.m.trace && r.m.mp1 == sys.m.mp1 && r.m.mp2 == sys.m.mp2
    ensures sys.m.active == P1 ==> r.m.cm2 == sys.m.cm2
    ensures sys.m.active == P2 ==> r.m.cm1 == sys.m.cm1
    ensures r.op == sys.op && r.m.active == sys.m.active
  {
    var a := sys.m.active;
    sys.(m := WithCm(sys.m, a, Cm(sys.m, a).(cycleState := CycleStartRequested)))
  }

  /** `cm_request_queue_flush`: sets the request on the ACTIVE context only. */
  function RequestQueueFlush(sys: System): (r: System)
    ensures Cm(r.m, sys.m.active).flushState == FlushRequested
    ensures Cm(r.m, sys.m.active) == Cm(sys.m, sys.m.active).(flushState := FlushRequested)
    ensures r.m.trace == sys.m.trace && r.m.mp1 == sys.m.mp1 && r.m.mp2 == sys.m.mp2
    ensures sys.m.active == P1 ==> r.m.cm2 == sys.m.cm2
    ensures sys.m.active == P2 ==> r.m.cm1 == sys.m.cm1
    ensures r.op == sys.op && r.m.active == sys.m.active
  {
    var a := sys.m.active;
    sys.(m := WithCm(sys.m, a, Cm(sys.m, a).(flushState := FlushRequested)))
  }

  /** `cm_queue_flush`: kill arcs, reset the context's planner (dropping the
      commands its runtime has not reached) and mark the flush as run. */
  function QueueFlush(m: Machine, w: Which): (m': Machine)
    ensures Cm(m', w).flushState == FlushWasRun
    ensures Mp(m', w).commands == []
    ensures Cm(m', w) == Cm(m, w).(flushState := FlushWasRun)
    ensures Mp(m', w) == Mp(m, w).(commands := [])
    ensures Cm(m', w).holdState == Cm(m, w).holdState
    ensures m'.trace == m.trace + [AbortArc(w), PlannerReset(w)]
    ensures m'.active == m.active
    ensures w == P1 ==> m'.cm2 == m.cm2 && m'.mp2 == m.mp2
    ensures w == P2 ==> m'.cm1 == m.cm1 && m'.mp1 == m.mp1
  {
    var m1 := Emit(m, [AbortArc(w), PlannerReset(w)]);
    var m2 := WithMp(m1, w, Mp(m1, w).(commands := []));
    WithCm(m2, w, Cm(m2, w).(flushState := FlushWasRun))
  }

  /** `_initiate_queue_flush`: flushes the active context, with no check of the
      hold state or of the runtime being idle. */
  function InitiateQueueFlush(sys: System): (r: System)
    ensures Cm(r.m, sys.m.active).flushState == FlushWasRun
    ensures r.m.cm1.holdState == sys.m.cm1.holdState
    ensures r.op == sys.op
  {
    sys.(m := QueueFlush(sys.m, sys.m.active))
  }

  /** `op.run_operation()` on the system. */
  function RunOnce(sys: System, runnable: bool): (t: Tick)
    requires Valid(sys.op)
    ensures t.Tick? ==> Valid(t.sys.op)
    ensures Wf(sys.op) && t.Tick? ==> Wf(t.sys.op)
    ensures Wf(sys.op) && t.Crash? ==> sys.op.add == NULL
    ensures Wf(sys.op) && t.Tick? ==> t.sys.op.add <= sys.op.add
    ensures Wf(sys.op) && t.Tick? ==> t.status in {Noop, Ok, Eagain}
    ensures Wf(sys.op) ==> var h := sys.m.cm1.holdState;
      t.Tick? ==> PollReach(h, t.sys.m.cm1.holdState)
  {
    var res := RunOperation(sys.op, sys.m, Step(runnable));
    assert Wf(sys.op) ==>
      && (res.Returned? ==> res.status in {Noop, Ok, Eagain})
      && PollReach(sys.m.cm1.holdState, res.state.cm1.holdState) by {
      if Wf(sys.op) {
        RunStatuses(sys, runnable);
      }
    }
    match res
    case NullDeref(_, _) => Crash
    case Returned(status, op, m) => Tick(status, System(m, op))
  }

  /** The runner `_initiate_cycle_start` runs in HOLD: the exit action for the
      hold type, then the final action, appended to the chain. */
  function ExitChain(sys: System): (op: Runner<Action>)
    requires Valid(sys.op)
    ensures Valid(op)
    ensures Wf(sys.op) ==> Wf(op) && op.add <= sys.op.add + 2
    ensures sys.op.inOperation ==> op == sys.op
    ensures var c := sys.m.cm1;
      Wf(sys.op) && !sys.op.inOperation && sys.op.add + 2 <= NULL ==>
        Funcs(op) == Funcs(sys.op) + ExitActionsFor(c.holdType) + ExitFinalActions(c.holdFinal)
    ensures var c := sys.m.cm1;
      Wf(sys.op) && !sys.op.inOperation && sys.op.add + 2 <= NULL && c.holdType == TypeSync ==>
        Funcs(op) == Funcs(sys.op) + ExitFinalActions(c.holdFinal)
  {
    var c := sys.m.cm1;
    AddAll(sys.op, ExitActionsFor(c.holdType) + ExitFinalActions(c.holdFinal))
  }

  /** `_initiate_cycle_start`. Outside a hold the cycle is started directly and
      the runner is not touched. In HOLD the exit action for the hold type and
      the final action are enqueued. Except outside a hold, the operation is
      then run once (its status is discarded). `None` is the NULL cursor. */
  function InitiateCycleStart(sys: System, runnable: bool): (r: Option<System>)
    requires Valid(sys.op)
    ensures r.Some? ==> Valid(r.value.op)
    ensures Wf(sys.op) && r.Some? ==> Wf(r.value.op)
    ensures Wf(sys.op) && sys.op.add + 2 < NULL ==> r.Some?
    ensures Wf(sys.op) && r.Some? ==> r.value.op.add <= sys.op.add + 2
    ensures sys.m.cm1.holdState == HoldOff ==>
      r == Some(sys.(m := Emit(sys.m, [CycleStart, RequestExecMove])))
    ensures Wf(sys.op) && r.Some? ==> PollReach(sys.m.cm1.holdState, r.value.m.cm1.holdState)
    ensures sys.m.cm1.holdState == Hold ==>
      var t := RunOnce(sys.(op := ExitChain(sys)), runnable);
      r == (if t.Crash? then None else Some(t.sys))
    ensures sys.m.cm1.holdState !in {HoldOff, Hold} ==>
      var t := RunOnce(sys, runnable);
      r == (if t.Crash? then None else Some(t.sys))
  {
    var c := sys.m.cm1;
    if c.holdState == HoldOff then
      Some(sys.(m := Emit(sys.m, [CycleStart, RequestExecMove])))
    else
      var op := if c.holdState == Hold then ExitChain(sys) else sys.op;
      var t := RunOnce(sys.(op := op), runnable);
      if t.Crash? then None else Some(t.sys)
  }

  /** The first two checks of the poll: a feedhold request and then a flush
      request on cm1 are promoted. */
  function PromoteRequests(sys: System): (r: System)
    requires Valid(sys.op)
    ensures Valid(r.op)
    ensures Wf(sys.op) ==> Wf(r.op) && r.op.add <= sys.op.add + 2
    ensures PollReach(sys.m.cm1.holdState, r.m.cm1.holdState)
    ensures var c := sys.m.cm1;
      c.holdState != HoldRequested && c.flushState != FlushRequested ==> r == sys
    ensures sys.m.cm1.holdState != HoldRequested ==> r.op == sys.op
    ensures var c := sys.m.cm1;
      c.holdState == HoldRequested ==>
        r.m.cm1.holdState == (if c.motionState == MotionRun then HoldSync else HoldRequested)
    ensures r.m.active == sys.m.active
    ensures var a := sys.m.active;
      if sys.m.cm1.flushState == FlushRequested then
        && Cm(r.m, a).flushState == FlushWasRun && Mp(r.m, a).commands == []
        && r.m.trace == sys.m.trace + [AbortArc(a), PlannerReset(a)]
      else r.m.trace == sys.m.trace
  {
    var s1 := if sys.m.cm1.holdState == HoldRequested then InitiateFeedhold(sys) else sys;
    if s1.m.cm1.flushState == FlushRequested then InitiateQueueFlush(s1) else s1
  }

  /** `cm_operation_sequencing_callback`: promote cm1's pending requests, then
      run the operation (a second time in the tick if cycle start ran it). */
  function SequencingPoll(sys: System, runnable: bool): (t: Tick)
    requires Valid(sys.op)
    ensures t.Tick? ==> Valid(t.sys.op)
    ensures Wf(sys.op) && t.Tick? ==> Wf(t.sys.op)
    ensures Wf(sys.op) && sys.op.add + 4 < NULL ==> t.Tick?
    ensures Wf(sys.op) && t.Tick? ==> t.status in {Noop, Ok, Eagain}
    ensures Wf(sys.op) && t.Tick? ==> PollReach(sys.m.cm1.holdState, t.sys.m.cm1.holdState)
  {
    var s2 := PromoteRequests(sys);
    var s3 := if s2.m.cm1.cycleState == CycleStartRequested then InitiateCycleStart(s2, runnable) else Some(s2);
    if s3.None? then Crash
    else
      var t := RunOnce(s3.value, runnable);
      assert Wf(sys.op) && t.Tick? ==> PollReach(sys.m.cm1.holdState, t.sys.m.cm1.holdState) by {
        if Wf(sys.op) && t.Tick? {
          PollReachTransitive(sys.m.cm1.holdState, s2.m.cm1.holdState, s3.value.m.cm1.holdState);
          PollReachTransitive(sys.m.cm1.holdState, s3.value.m.cm1.holdState, t.sys.m.cm1.holdState);
        }
      }
      t
  }

  /** How cm1's hold state can move within one poll, when nothing outside the
      sequencing runs: a request becomes SYNC, HOLD_ACTION_START becomes PENDING,
      HOLD_DONE becomes HOLD (and possibly EXIT_PENDING), HOLD becomes
      EXIT_PENDING, and `_cycle_exit` may end any state in OFF. */
  predicate PollReach(h: HoldState, h': HoldState) {
    || h' == h
    || h' == HoldOff
    || (h == HoldRequested && h' == HoldSync)
    || (h == HoldActionStart && h' == HoldPending)
    || (h == HoldDone && h' == Hold)
    || (h == HoldDone && h' == HoldExitPending)
    || (h == Hold && h' == HoldExitPending)
  }

  lemma PollReachTransitive(a: HoldState, b: HoldState, c: HoldState)
    requires PollReach(a, b) && PollReach(b, c)
    ensures PollReach(a, c)
  {
  }

  /** Every action keeps cm1's hold state within `PollReach`, so the operation
      run does as well; every action returns OK or EAGAIN, so the run never
      reports an error. */
  lemma RunStatuses(sys: System, runnable: bool)
    requires Wf(sys.op)
    ensures var res := RunOperation(sys.op, sys.m, Step(runnable));
      && (res.Returned? ==> res.status in {Noop, Ok, Eagain})
      && PollReach(sys.m.cm1.holdState, res.state.cm1.holdState)
  {
    var exec := Step(runnable);
    var h := sys.m.cm1.holdState;
    var Inv := (x: Machine) => PollReach(h, x.cm1.holdState);
    forall a, p, x | Inv(x) ensures Inv(exec(a, p, x).1) && exec(a, p, x).0 in {Ok, Eagain} {
      ExecReach(a, p, x, runnable);
    }
    RunPreserves(sys.op, sys.m, exec, Inv);
  }

  /** One action call moves cm1's hold state only along `PollReach`, and each
      move belongs to one action: the entry action to PENDING and to HOLD, the
      exit action to EXIT_PENDING, `_cycle_exit` to OFF. */
  lemma ExecReach(a: Action, p: Params, m: Machine, runnable: bool)
    ensures PollReach(m.cm1.holdState, Exec(a, p, m, runnable).1.cm1.holdState)
    ensures var h := m.cm1.holdState;
      var h' := Exec(a, p, m, runnable).1.cm1.holdState;
      h' != h ==>
        || (h == HoldActionStart && h' == HoldPending && a == FeedholdWithActions)
        || (h == HoldDone && h' == Hold && a == FeedholdWithActions)
        || (h == Hold && h' == HoldExitPending && a == FeedholdExitWithActions)
        || (h' == HoldOff && a == CycleExit)
  {
  }

  // ---------------------------------------------------------------------
  // Environment transitions and whole-system steps

  /** plan_exec, once the deceleration of a SYNC hold is complete, starts the
      hold actions (its intermediate states are not part of this model). */
  function PlanExecHoldStart(sys: System): (r: System)
    ensures sys.m.cm1.holdState == HoldSync ==> r.m.cm1 == sys.m.cm1.(holdState := HoldActionStart)
    ensures sys.m.cm1.holdState != HoldSync ==> r == sys
    ensures r.op == sys.op && r.m.cm2 == sys.m.cm2 && r.m.active == sys.m.active
  {
    if sys.m.cm1.holdState == HoldSync then
      sys.(m := sys.m.(cm1 := sys.m.cm1.(holdState := HoldActionStart)))
    else sys
  }

  /** The runtime of planner `w` reaches its oldest queued synchronisation
      command, which fires from the interrupt layer. */
  function RuntimeReachesCommand(sys: System, w: Which): (r: System)
    ensures |Mp(sys.m, w).commands| == 0 ==> r == sys
    ensures |Mp(sys.m, w).commands| > 0 ==>
      && Mp(r.m, w).commands == Mp(sys.m, w).commands[1..]
      && r.m.cm1.holdState == (if Mp(sys.m, w).commands[0] == HoldDoneSync then HoldDone else HoldExitDone)
      && r.m.cm1 == sys.m.cm1.(holdState := r.m.cm1.holdState)
      && Mp(r.m, w) == Mp(sys.m, w).(commands := Mp(sys.m, w).commands[1..])
      && r.m.trace == sys.m.trace + [StatusReport]
    ensures w == P1 ==> r.m.mp2 == sys.m.mp2
    ensures w == P2 ==> r.m.mp1 == sys.m.mp1
    ensures r.op == sys.op && r.m.active == sys.m.active && r.m.cm2 == sys.m.cm2
  {
    var p := Mp(sys.m, w);
    if |p.commands| == 0 then sys
    else sys.(m := FireSync(WithMp(sys.m, w, p.(commands := p.commands[1..])), p.commands[0]))
  }

  /** The rest of the machine sets a context's cycle and motion state (cycle
      start and end, planning, motion stopping). The cycle state is free, so
      this step also stands for a cycle-start request written into a context
      by code outside this file. */
  function SetModes(sys: System, w: Which, cycle: CycleState, motion: MotionState): (r: System)
    ensures Cm(r.m, w).cycleState == cycle && Cm(r.m, w).motionState == motion
    ensures Cm(r.m, w).holdState == Cm(sys.m, w).holdState
    ensures r.op == sys.op
  {
    sys.(m := WithCm(sys.m, w, Cm(sys.m, w).(cycleState := cycle, motionState := motion)))
  }

  /** What can happen next, from the sequencing's point of view. */
  datatype Input =
    | DoRequestFeedhold(t: HoldType, f: HoldFinal)
    | DoRequestCycleStart
    | DoRequestQueueFlush
    | DoPoll(runnable: bool)
    | DoPlanExecHoldStart
    | DoRuntimeSync(w: Which)
    | DoSetModes(w: Which, cycle: CycleState, motion: MotionState)

  function Next(sys: System, e: Input): (t: Tick)
    requires Valid(sys.op)
    ensures t.Tick? ==> Valid(t.sys.op)
    ensures Wf(sys.op) && t.Tick? ==> Wf(t.sys.op)
    ensures !e.DoPoll? ==> t.Tick?
  {
    match e
    case DoRequestFeedhold(ty, f) => Tick(Ok, RequestFeedhold(sys, ty, f))
    case DoRequestCycleStart => Tick(Ok, RequestCycleStart(sys))
    case DoRequestQueueFlush => Tick(Ok, RequestQueueFlush(sys))
    case DoPoll(runnable) => SequencingPoll(sys, runnable)
    case DoPlanExecHoldStart => Tick(Ok, PlanExecHoldStart(sys))
    case DoRuntimeSync(w) => Tick(Ok, RuntimeReachesCommand(sys, w))
    case DoSetModes(w, c, mo) => Tick(Ok, SetModes(sys, w, c, mo))
  }

  /** A run of steps; a NULL dereference ends it. */
  function Execute(sys: System, es: seq<Input>): (t: Tick)
    requires Valid(sys.op)
    ensures t.Tick? ==> Valid(t.sys.op)
    ensures Wf(sys.op) && t.Tick? ==> Wf(t.sys.op)
    decreases |es|
  {
    if |es| == 0 then Tick(Ok, sys)
    else
      var t := Next(sys, es[0]);
      if t.Crash? then Crash else Execute(t.sys, es[1..])
  }
}
